=== FILE: README.md ===
# Pentago-Twist players: search cores in Dafny

This project models the decision logic of a student Pentago-Twist agent and
proves properties of it. The board game itself enters every operation as a
`Game.Rules` record of functions. Its fields are legal-move enumeration, move
application, game-over test, winner, turn player, turn number and board.
Four parts of the agent are modelled.

- **Alpha-beta search** (`ABPruningOptimizer`): modules `AlphaBeta` and
  `Heuristic`.
  - `prune` is a depth-bounded alpha-beta search. WHITE maximises and BLACK
    minimises. The clock is tested after every child, and that test is a
    deadline oracle here.
  - `computeHeuristic` scans the board for adjacent same-coloured pairs. Java
    narrows each `+= Math.pow(2, k)` back to `int` with saturation, and the
    final `-stateScore` wraps at `Integer.MIN_VALUE`. Both are modelled
    exactly (module `JavaInt`).
- **Tree helpers** (`MyTools`): module `MyTools`, on top of `SearchTree`.
  - Nodes live in an arena of ids. A parent id is always smaller than its
    children's ids, so the walk up the parent links (`SearchTree.Ancestry`)
    terminates.
  - Also modelled: random child choice, `equalsBoard`, child lookup by state,
    the two `pruneTree` re-rootings and UCT child selection.
- **The v3 Monte Carlo player** (`v3/c2/StudentPlayer`): module `UctPlayer`.
  It builds a fresh tree per move and runs rounds of selection, expansion,
  playout and backpropagation. It then answers with the root child that has
  the most wins.
- **The v2 engine with tree reuse** (`mcts/v2/MonteCarloUCT`): module
  `ReuseEngine`. It keeps one tree across moves and indexes the grandchildren
  reached through its own move by board state. The next search starts at the
  node the opponent's reply leads to. It can save its tree to a training file
  and load it back.

Three kinds of outside input become parameters:

- Time limits become a finite list of rounds.
- Each round carries its two random outcomes: the child index drawn and the
  playout's winner.
- The UCT formula and `MCTSNode.compareTo` are the ordering parameters
  `formula` and `order`.

Java exceptions become `Faults.Result` values.

- A `NullPointerException` is `Err(NullPointer)`, e.g. the sentinel write
  through a root's null parent.
- `Collections.max` on an empty child list is `Err(NoSuchElement)`.
- `legalMoves.get(0)` on an empty move list is `Err(IndexOutOfBounds)`.

The v2 training loop (`ReuseEngine.Iterate`, `Run`, `Train`) follows the
code as written, including its backpropagation
(`ReuseEngine.BackPropagateAsWritten`). That backpropagation gives every
credit to the start node, so wins can exceed visits (see Findings). The v2
tree invariants therefore leave out wins within visits. They are:

- consistent parent and child links;
- each child holding a legal move of its parent and the state that move leads to;
- non-negative visit counts, each at least the sum of the children's.

The corrected backpropagation (`ReuseEngine.BackPropagate`) and a round
built on it (`ReuseEngine.IntendedIterate`) are modelled beside the code as
written. For them, wins within visits is proved as well.

## Model

| member | source | states |
|---|---|---|
| AlphaBeta.IntendedDefaultOptimizer | src/student_player/swap/min_max/ABPruningOptimizer.java:17-28 | the window the no-argument constructor delegates to is the full int range, with alpha below beta |
| AlphaBeta.DefaultOptimizer | src/student_player/swap/min_max/ABPruningOptimizer.java:17-21 | as written, the no-argument constructor leaves both bounds at Java's default 0, a window that is already closed |
| AlphaBeta.WindowOptimizer | src/student_player/swap/min_max/ABPruningOptimizer.java:23-28 | the two-argument constructor stores the given bounds as the initial window |
| AlphaBeta.Update | src/student_player/swap/min_max/ABPruningOptimizer.java:52-69 | WHITE raises alpha to the child's score and BLACK lowers beta to it. The remembered move changes only on a strict improvement, so a tie keeps the earlier move |
| AlphaBeta.Prune | src/student_player/swap/min_max/ABPruningOptimizer.java:35-45 | an empty move list faults at every depth, because the first move is read before the depth test. Any result carries a legal move. At depth 0 the result is the heuristic paired with the first legal move |
| AlphaBeta.Scan | src/student_player/swap/min_max/ABPruningOptimizer.java:47-76 | the loop only narrows the window and reports a move it saw. A full pass returns the final alpha (WHITE) or beta (BLACK) and no deadline test fired. An early exit happens only on a deadline or when alpha >= beta. Which window a full pass ends with is in FullPassIsFold, and what an early exit returns is in CutoffReturnsChildScore |
| AlphaBeta.FullPassIsFold | src/student_player/swap/min_max/ABPruningOptimizer.java:47-76 | a full pass leaves every child's deadline test false and the window open. Its final alpha, beta and move are exactly those the bound updates of all the children, each searched with the window reached at it, produce (`WindowAt`), so the returned score is that fold's alpha (WHITE) or beta (BLACK) |
| AlphaBeta.CutoffReturnsChildScore | src/student_player/swap/min_max/ABPruningOptimizer.java:47-73 | an early exit happens at a child k such that every earlier child left the deadline test false and alpha < beta. At k the deadline fired or alpha >= beta. The exit returns the score child k earned with the window the loop reached at k (`WindowAt`), not the bound, together with the window and move after k's update |
| AlphaBeta.GetNextBestMove | src/student_player/swap/min_max/ABPruningOptimizer.java:30-32 | the answer is a legal move of the state; no legal move means IndexOutOfBounds |
| AlphaBeta.ClosedWindowEvaluatesFirstMoveOnly | src/student_player/swap/min_max/ABPruningOptimizer.java:47-73 | with alpha >= beta, a non-leaf search scores only its first move and returns that child's score with that move |
| AlphaBeta.DefaultSearchReturnsFirstMove | src/student_player/swap/min_max/ABPruningOptimizer.java:17-21 | an optimizer built by the no-argument constructor answers the first legal move at every depth, in every game, whatever the deadline |
| AlphaBeta.DefaultWindowIgnoresSecondMove | src/student_player/swap/min_max/ABPruningOptimizer.java:17-21 | in a game whose second move wins for WHITE, that optimizer still answers the first move |
| AlphaBeta.IntendedWindowReachesSecondMove | src/student_player/swap/min_max/ABPruningOptimizer.java:23-32 | with the full window the same depth-1 search answers the winning second move |
| Heuristic.Weigh | src/student_player/swap/min_max/ABPruningOptimizer.java:109-119 | a white pair adds 2^k and a black pair subtracts 2^k, both extending the streak. Anything else adds nothing and resets the streak |
| Heuristic.ScanOrder | src/student_player/swap/min_max/ABPruningOptimizer.java:102-170 | one evaluation makes 70 comparisons. The first 60 alternate a row pair (i, j)-(i, j+1) and a column pair (j, i)-(j+1, i), with i the outer and j the inner loop index. The last 10 alternate (d, d)-(d+1, d+1) and (d, 5-d)-(d+1, 4-d) for d = 0..4 |
| Heuristic.Deltas | src/student_player/swap/min_max/ABPruningOptimizer.java:100-170 | the scan yields one increment per comparison |
| Heuristic.DeltaAt | src/student_player/swap/min_max/ABPruningOptimizer.java:100-170 | the k-th increment is the weight of the k-th comparison under the counters that the earlier comparisons left |
| Heuristic.Accumulate | src/student_player/swap/min_max/ABPruningOptimizer.java:110-164 | the saturating int conversion after each step never moves the score against the sign of the increments |
| Heuristic.ComputeHeuristic | src/student_player/swap/min_max/ABPruningOptimizer.java:173-187 | a WHITE win scores MAX_VALUE, or -MAX_VALUE for BLACK. Any other finished game, a draw included, scores MIN_VALUE for both colours, because negating MIN_VALUE wraps |
| Heuristic.AccumulateExact | src/student_player/swap/min_max/ABPruningOptimizer.java:110-114 | the saturating int conversion after each step never fires while the increments cannot leave the int range, so the score is seed plus sum |
| Heuristic.HeuristicOfRunningGame | src/student_player/swap/min_max/ABPruningOptimizer.java:94-187 | on a running game without saturation, the result is the seed (alpha for WHITE, beta for BLACK) plus the board's adjustment, sign-flipped for BLACK |
| Heuristic.QuietBoardKeepsSeed | src/student_player/swap/min_max/ABPruningOptimizer.java:100-171 | a running game with no same-coloured adjacent pair on the scanned lines evaluates to the oriented seed |
| Heuristic.SwapNegatesAdjustment | src/student_player/swap/min_max/ABPruningOptimizer.java:102-170 | exchanging every piece's colour negates the board's adjustment and keeps its magnitude |
| Heuristic.StreakCarriesAcrossRows | src/student_player/swap/min_max/ABPruningOptimizer.java:95-119 | on the real scan order, the horizontal counter is not reset between rows. With all of row 0 white, the first white pair of row 1 is worth 2^5 = 32, not 1 |
| JavaInt.Negate | src/student_player/swap/min_max/ABPruningOptimizer.java:183-185 | int negation is exact except at MIN_VALUE, which is its own negation |
| JavaInt.Clamp | src/student_player/swap/min_max/ABPruningOptimizer.java:110 | converting the double sum back to int keeps in-range values and saturates the rest at MIN_VALUE and MAX_VALUE |
| MyTools.CreateNode | src/student_player/MyTools.java:27-36 | a new node holds the given move, state and parent, with no children and zero counts |
| MyTools.GetRandomChild | src/student_player/MyTools.java:51-54 | null exactly when there are no children; otherwise a child of the node that links back to it |
| MyTools.EveryChildCanBeDrawn | src/student_player/MyTools.java:51-54 | every child is the outcome of some random draw |
| MyTools.GetChildWithMaxScore | src/student_player/MyTools.java:56-58 | NoSuchElement exactly when there are no children. Otherwise the result is a child with the largest win count, and no earlier child ties it |
| MyTools.EqualsBoard | src/student_player/MyTools.java:111-132 | true exactly when the two states agree on every cell, the turn player, the winner and the turn number |
| MyTools.SameObservationIsEquivalence | src/student_player/MyTools.java:111-132 | the comparison `equalsBoard` makes is reflexive, symmetric and transitive |
| MyTools.GetChildWithState | src/student_player/MyTools.java:60-68 | null exactly when no child's state equals the argument. Otherwise the first such child |
| MyTools.FirstWithState | src/student_player/MyTools.java:61-67 | the loop from position i finds the first matching child at or after i, or none exactly when none matches there |
| MyTools.PruneTreeToNode | src/student_player/MyTools.java:85-88 | a null node faults. Otherwise the node becomes a parentless root and exactly its descendants remain, unchanged except for that parent link, still forming a well-linked forest |
| MyTools.PrunedIsLinked | src/student_player/MyTools.java:85-88 | keeping a node's descendants and clearing its parent keeps the parent and child links consistent |
| MyTools.PrunedWalkStopsAtRoot | src/student_player/MyTools.java:85-88 | after re-rooting, every node's walk up the parents is its old walk cut off at the new root |
| MyTools.PruneTreeToState | src/student_player/MyTools.java:60-83 | it faults exactly when no root child has an equal state. Otherwise the new root is the FIRST such child, with a null parent. Exactly its descendants are kept, each node unchanged except the new root's parent |
| MyTools.UctValue | src/student_player/MyTools.java:93-99 | an unvisited node scores the Integer.MAX_VALUE sentinel |
| MyTools.FindBestNodeWithUct | src/student_player/MyTools.java:101-107 | NoSuchElement exactly when there are no children. Otherwise a child with the largest UCT value against the parent's visit count, and no earlier child ties it |
| MyTools.FirstUnvisitedChildIsSelected | src/student_player/MyTools.java:93-107 | when every visited child's formula value stays below the sentinel, UCT picks the first unvisited child |
| SearchTree.Ancestry | src/student_player/v3/c2/StudentPlayer.java:105-115 | the nodes the backpropagation loop visits start at the given node and all exist in the tree |
| SearchTree.AncestryLinks | src/student_player/v3/c2/StudentPlayer.java:108-113 | each step of the walk follows a parent link to a smaller id, and the walk ends at a node with a null parent |
| SearchTree.Expand | src/student_player/v3/c2/StudentPlayer.java:93-103 | one fresh child per legal move, in enumeration order. Each holds its move, the parent link and the move applied to the parent's state. All other nodes are unchanged |
| SearchTree.ExpandIfRunning | src/student_player/v3/c2/StudentPlayer.java:62-65 | a finished game leaves the tree unchanged. Otherwise the leaf's child list gains exactly the new ids, one per legal move |
| SearchTree.ExpandKeepsLinks | src/student_player/v3/c2/StudentPlayer.java:93-103 | expansion keeps the parent and child links consistent |
| SearchTree.ExpandKeepsConsistency | src/student_player/v3/c2/StudentPlayer.java:97-100 | after expansion every child still holds a legal move of its parent's state and the state that move leads to |
| SearchTree.ExpandKeepsCover | src/student_player/v3/c2/StudentPlayer.java:93-103 | expansion keeps every visit count non-negative and at least the sum of the children's counts |
| SearchTree.ExpandIfRunningKeepsOld | src/student_player/v3/c2/StudentPlayer.java:62-65 | expansion keeps the walk, visits and wins of every existing node |
| SearchTree.VisitKeepsCover | src/student_player/v3/c2/StudentPlayer.java:105-115 | one more visit along a walk keeps every node's visit count at least the sum of its children's counts |
| SearchTree.BestChild | src/student_player/mcts/v2/MonteCarloUCT.java:113 | Collections.max over the children faults exactly when there are none. Otherwise it picks a child with the largest key, and no earlier child ties it |
| SearchTree.FirstMax | src/student_player/MyTools.java:56-58 | the scan Collections.max makes: an index of a largest key, and no earlier index ties it |
| SearchTree.SelectLeaf | src/student_player/mcts/v2/MonteCarloUCT.java:111-115 | the descent ends at a node without children whose walk passes the start node |
| UctPlayer.OpponentOf | src/student_player/v3/c2/StudentPlayer.java:50-52 | the opponent is the other colour |
| UctPlayer.SelectPromisingNode | src/student_player/v3/c2/StudentPlayer.java:85-91 | the UCT descent ends at a childless node below the root |
| UctPlayer.BackPropagation | src/student_player/v3/c2/StudentPlayer.java:105-115 | the loop changes statistics only: nodes, states, moves and links stay. Per-node counts are in BackPropagationAt |
| UctPlayer.BackPropagationAt | src/student_player/v3/c2/StudentPlayer.java:105-115 | every node on the walk from the playout node gains one visit, and one win exactly when the round is credited. No other node changes. A round is credited when its winner is the colour that was to move at the root |
| UctPlayer.BackPropagationKeepsValid | src/student_player/v3/c2/StudentPlayer.java:105-115 | backpropagation keeps every tree invariant, wins within visits included |
| UctPlayer.SimulateRandomPlayout | src/student_player/v3/c2/StudentPlayer.java:117-133 | a state the opponent has won sets the parent's win count to MIN_VALUE and reports the opponent, and faults at a parentless node. A finished state reports its winner and a running one the playout's. No visit count changes |
| UctPlayer.SimulateKeepsValid | src/student_player/v3/c2/StudentPlayer.java:122-126 | the MIN_VALUE sentinel keeps every tree invariant |
| UctPlayer.PickExplore | src/student_player/v3/c2/StudentPlayer.java:67-71 | the playout starts at the leaf exactly when it has no children. Otherwise it starts at one of the leaf's children |
| UctPlayer.Iterate | src/student_player/v3/c2/StudentPlayer.java:58-77 | a round keeps the parent and child links and the root. Its invariants are in IterateKeepsValid and IterateVisitsRootOnce |
| UctPlayer.ExploreBelowRoot | src/student_player/v3/c2/StudentPlayer.java:67-71 | the walk back from the playout node passes the root |
| UctPlayer.ExpandKeepsValid | src/student_player/v3/c2/StudentPlayer.java:93-103 | expansion keeps every tree invariant and old nodes' states and moves |
| UctPlayer.IterateKeepsValid | src/student_player/v3/c2/StudentPlayer.java:58-77 | a whole round keeps every tree invariant, and old nodes keep their states and moves |
| UctPlayer.IterateVisitsRootOnce | src/student_player/v3/c2/StudentPlayer.java:58-77 | every completed round adds exactly one visit to the root |
| UctPlayer.RunRounds | src/student_player/v3/c2/StudentPlayer.java:58-77 | the loop keeps every tree invariant, and no rounds leave the tree as it was |
| UctPlayer.RunRoundsVisitRoot | src/student_player/v3/c2/StudentPlayer.java:58-77 | after the loop the root has been visited once per round |
| UctPlayer.NewTree | src/student_player/v3/c2/StudentPlayer.java:54-56 | the search starts from a single parentless, childless root holding the board |
| UctPlayer.ChooseMoveMcts | src/student_player/v3/c2/StudentPlayer.java:46-83 | no rounds means NoSuchElement. Otherwise the answer is the move of a root child with no fewer wins than any sibling, the move is legal on the board, and the root's visit count equals the number of rounds |
| ReuseEngine.NewEngine | src/student_player/mcts/v2/MonteCarloUCT.java:25-29 | a new engine has no root, no nodes and an empty lookup |
| ReuseEngine.ChooseRoot | src/student_player/mcts/v2/MonteCarloUCT.java:73-75 | the root afterwards holds the board. A root already holding it is kept, otherwise the lookup's node is used, otherwise a fresh parentless node is added. The lookup is unchanged |
| ReuseEngine.ChooseRootKeepsValid | src/student_player/mcts/v2/MonteCarloUCT.java:73-75 | the root choice keeps every engine invariant and only grows the tree |
| ReuseEngine.PickExplore | src/student_player/mcts/v2/MonteCarloUCT.java:81-84 | the playout starts at the leaf exactly when it has no children, otherwise at one of its children |
| ReuseEngine.Simulate | src/student_player/mcts/v2/MonteCarloUCT.java:136-151 | a finished state not won by the player to move, a draw included, sets the parent's wins to MIN_VALUE and faults at a parentless node. The reported winner is the state's when finished, the playout's otherwise. No visit count changes |
| ReuseEngine.SimulateKeepsValid | src/student_player/mcts/v2/MonteCarloUCT.java:138-142 | the MIN_VALUE sentinel keeps every tree invariant, and keeps wins within visits when that held before |
| ReuseEngine.Credit | src/student_player/mcts/v2/MonteCarloUCT.java:126-131 | a draw is worth half a win, and any other outcome the player to move at that node did not win is worth a whole win. Nothing is credited exactly when that player won |
| ReuseEngine.BackPropagate | src/student_player/mcts/v2/MonteCarloUCT.java:122-134 | corrected: the loop changes statistics only. Per-node statistics are in BackPropagateAt |
| ReuseEngine.BackPropagateAsWritten | src/student_player/mcts/v2/MonteCarloUCT.java:122-134 | as written: the loop keeps the set of nodes. Its shape, visits and wins are in AsWrittenKeepsShape, AsWrittenVisitsAt and AsWrittenWinsAt |
| ReuseEngine.AsWrittenKeepsShape | src/student_player/mcts/v2/MonteCarloUCT.java:122-134 | as written, the loop changes statistics only: nodes, states, moves and links stay |
| ReuseEngine.AsWrittenVisitsAlong | src/student_player/mcts/v2/MonteCarloUCT.java:123-125 | as written, started at the playout node, the loop adds one visit to each node of the walk and nowhere else |
| ReuseEngine.AsWrittenKeepsValid | src/student_player/mcts/v2/MonteCarloUCT.java:122-134 | as written, the loop keeps every tree invariant, each visit count still at least the sum of the children's |
| ReuseEngine.BackPropagateAt | src/student_player/mcts/v2/MonteCarloUCT.java:122-134 | corrected: every node on the walk gains one visit and the credit for its own state. No other node changes |
| ReuseEngine.BackPropagateKeepsValid | src/student_player/mcts/v2/MonteCarloUCT.java:122-134 | the corrected backpropagation keeps wins within visits and every tree invariant |
| ReuseEngine.AsWrittenVisitsAt | src/student_player/mcts/v2/MonteCarloUCT.java:123-125 | as written, every node on the walk gains one visit |
| ReuseEngine.AsWrittenWinsAt | src/student_player/mcts/v2/MonteCarloUCT.java:126-131 | as written, the start node gains the credits of every node on the walk and no other node gains any |
| ReuseEngine.AsWrittenDrawAtStart | src/student_player/mcts/v2/MonteCarloUCT.java:122-134 | as written, a draw gives the start node one visit but half a win per node of its walk |
| ReuseEngine.AsWrittenOvercreditsStart | src/student_player/mcts/v2/MonteCarloUCT.java:122-134 | as written, a draw at the grandchild of a fresh three-node chain leaves it with 1 visit and 1.5 wins, and the root with a visit and no win |
| ReuseEngine.IntendedCreditsEveryNode | src/student_player/mcts/v2/MonteCarloUCT.java:122-134 | corrected, the same draw leaves the grandchild and the root with one visit and half a win each |
| ReuseEngine.ExpandKeepsValid | src/student_player/mcts/v2/MonteCarloUCT.java:117-120 | expansion keeps every tree invariant, and keeps wins within visits when that held before |
| ReuseEngine.IterateKeepsValid | src/student_player/mcts/v2/MonteCarloUCT.java:77-85 | one training round as written, with the backpropagation of lines 122-134, keeps every tree invariant and only grows the tree |
| ReuseEngine.Stage | src/student_player/mcts/v2/MonteCarloUCT.java:78-84 | selection, expansion, the pick and the playout keep the links and the root, and the playout node is in the tree |
| ReuseEngine.StageKeepsValid | src/student_player/mcts/v2/MonteCarloUCT.java:78-84 | the round up to its backpropagation keeps every tree invariant, and keeps wins within visits when that held before |
| ReuseEngine.Iterate | src/student_player/mcts/v2/MonteCarloUCT.java:77-85 | a round as written keeps the parent and child links and the root |
| ReuseEngine.IntendedIterate | src/student_player/mcts/v2/MonteCarloUCT.java:77-85 | the same round with the corrected backpropagation keeps the links and the root |
| ReuseEngine.IntendedIterateKeepsValid | src/student_player/mcts/v2/MonteCarloUCT.java:77-85 | a corrected round keeps wins within visits as well as every tree invariant |
| ReuseEngine.Run | src/student_player/mcts/v2/MonteCarloUCT.java:76-86 | the training loop as written keeps every tree invariant and the root, and no rounds leave the tree as it was |
| ReuseEngine.Train | src/student_player/mcts/v2/MonteCarloUCT.java:71-87 | training as written keeps every engine invariant (tree invariants, root in the tree, sound lookup), leaves the root at the board, and keeps the lookup |
| ReuseEngine.FirstWithMove | src/student_player/mcts/v2/MonteCarloUCT.java:99-104 | the first child carrying the move, or none exactly when no child carries it |
| ReuseEngine.IndexByState | src/student_player/mcts/v2/MonteCarloUCT.java:106-108 | every listed node's state is a key, and every entry is a listed node holding that state |
| ReuseEngine.IndexKeepsLast | src/student_player/mcts/v2/MonteCarloUCT.java:106-108 | a later node with an equal state overwrites an earlier one, so an entry is the last node holding its state |
| ReuseEngine.UpdateChildMoves | src/student_player/mcts/v2/MonteCarloUCT.java:96-109 | when some child carries the move, the lookup indexes every child of the FIRST such child by its state and holds nothing else. Each entry is a node holding its key. With no such child the lookup is empty |
| ReuseEngine.NextMove | src/student_player/mcts/v2/MonteCarloUCT.java:89-94 | the answer is a legal move of the board carried by a root child, and the root stays at the board. The lookup indexes exactly the children of the first root child carrying the answer |
| ReuseEngine.NoRoundsFromFreshRootFails | src/student_player/mcts/v2/MonteCarloUCT.java:89-94 | answering on an unknown board without a training round throws NoSuchElement |
| ReuseEngine.ReplyIsReused | src/student_player/mcts/v2/MonteCarloUCT.java:73-75 | when the opponent's reply leads to a board in the lookup, the next search starts at that node |
| ReuseEngine.LoadTrainingFile | src/student_player/mcts/v2/MonteCarloUCT.java:51-65 | a failed read changes nothing. Otherwise the file's tree and root are installed and the lookup indexes exactly the root's children by state |
| ReuseEngine.CreateTrainingFile | src/student_player/mcts/v2/MonteCarloUCT.java:37-49 | the file holds the tree as the code trains it, with the root at the initial board and every engine invariant |
| ReuseEngine.LoadRestoresCreated | src/student_player/mcts/v2/MonteCarloUCT.java:37-65 | loading the file just written restores the same tree and root, with the root at the initial board, and every engine invariant holds |

## Left out

- The Pentago-Twist rules are not modelled. This covers legal moves, quadrant twists, win detection, `clone` and `processMove`. They are the fields of `Game.Rules`, taken as total functions.
- The clocks are not modelled: `System.currentTimeMillis`, `maxSearchTime`, `TIME_LIMIT`, `timeLimit` and the 500 ms default. The alpha-beta deadline is an oracle over child-index paths. The Monte Carlo time limits become the length of the `rounds` list.
- Randomness is not modelled: `rand.nextInt`, `Math.random`, `getRandomMove` and the playout loops. Each round supplies the drawn index and the playout's final winner.
- MyTools.UctValue: the floating-point formula with `EXPLORATION_PARAMETER`, `Math.log` and `Math.sqrt` is the parameter `formula`. Only the unvisited-node sentinel is stated.
- `MCTSNode` and its `compareTo` are not part of this model. Nor are `SimulationStrategy`, `Heuristics.choseMove` and `new PentagoBoard()`. `compareTo` is the ordering parameter `order`. The v2 `MCTSNode(node, m)` constructor is taken to attach a child the way the v3 `expandNode` does. The choice of playout strategy only changes the playout's winner, which is already an input.
- The v3 player imports its own `v3/c2/MyTools`, which is not part of this model. It is taken to behave like `src/student_player/MyTools.java` (its `childArray` is `children`).
- The swap-mode `StudentPlayer` that drives the alpha-beta optimizer is not modelled. The no-argument constructor it uses is covered under Findings.
- Serialisation and file I/O are not modelled: `ObjectOutputStream`, `ObjectInputStream` and the `OPENING_MOVES.ser` name. A read yields `Some(snapshot)` or `None`. Write failures are caught in the source and change nothing the engine keeps.
- ReuseEngine.LoadTrainingFile: requires that a snapshot read from the file holds a well-linked tree containing its root. Deserialising arbitrary bytes is not modelled.
- ReuseEngine.FirstWithMove: `child.move.equals(move)` is value equality on moves. `move` is the very object taken from the max child, so if `PentagoMove` kept `Object`'s identity `equals`, the source would always find that child. The model finds the first child with an equal move instead. The two differ only when two siblings carry equal moves, which needs a repeated move in the legal move list; whether `PentagoMove` overrides `equals` is not visible here.
- Board equality is value equality. This applies to `root.state.equals(board)` and to the `HashMap` keyed by `PentagoBoardState` in the v2 engine. Whether `PentagoBoardState` overrides `equals`/`hashCode` is not visible here.
- UctPlayer.BackPropagationAt: visit and win counts are unbounded integers. Java's `int` counters would wrap only after 2^31 rounds, far beyond any time limit.
- ReuseEngine.BackPropagateAt: `MCTSNode` is not part of this model. Its `wins` and `visits` fields are assumed to be a `double` and an `int`, because `node.wins += 0.5` and `Integer.MIN_VALUE` are written to `wins`. Wins are exact reals here; halves and small integers are exact in a double anyway. If `wins` were an `int`, `+= 0.5` would truncate and a draw would credit nothing, so the Findings row's 1.5 would be 1.
- ReuseEngine.IterateKeepsValid: wins within visits is not promised for the v2 training loop, because its backpropagation as written breaks it (see Findings). Only `ReuseEngine.IntendedIterateKeepsValid`, for the corrected round, promises it.
- The no-argument `Node()` and the `Tree()` of `MyTools` (null state) are only used through `chooseMoveMCTS`, which sets the root's state at once. This is modelled as `UctPlayer.NewTree`.
- `tree.root = selectedNode` at the end of `chooseMoveMCTS` is not modelled: the tree is a local variable and is dropped on return.
- Garbage collection of nodes unreachable after `pruneTree` is modelled by removing them from the arena. The v2 engine never detaches a reused root, so its old tree stays reachable and is kept in full.
- The constants `FIRST_MOVE_TIME_LIMIT` and `MOVE_TIME_LIMIT` only feed the clocks.

## Findings

| source | as written | input that shows it | evidently intended | confidence | as-written member | corrected member |
|---|---|---|---|---|---|---|
| src/student_player/swap/min_max/ABPruningOptimizer.java:17-21 | the no-argument constructor builds a second optimizer with the window MIN_VALUE..MAX_VALUE and discards it, so this optimizer's window stays 0..0 and every search stops after its first child | a depth-1 search from a position whose first move draws and whose second move wins for WHITE answers the first move | delegate to the two-argument constructor with the full int window | not executed; high | AlphaBeta.DefaultWindowIgnoresSecondMove | AlphaBeta.IntendedWindowReachesSecondMove |
| src/student_player/mcts/v2/MonteCarloUCT.java:122-134 | the loop adds every node's credit to `node.wins`, the start node, instead of `n.wins` | a draw reported at the grandchild of a fresh chain root-child-grandchild: the grandchild ends with 1 visit and 1.5 wins, the root with 1 visit and 0 wins | each node on the walk gains the credit for its own state, keeping wins within visits | not executed; high | ReuseEngine.AsWrittenOvercreditsStart | ReuseEngine.BackPropagateAt |

=== FILE: alphabeta.dfy ===
/**
  `ABPruningOptimizer`: depth-bounded alpha-beta search over the game rules,
  with WHITE maximising and BLACK minimising, a wall-clock cutoff after every
  child, and `computeHeuristic` at the leaves.

  The wall clock is an oracle: `timeUp(path)` answers the deadline test made
  right after the child reached by the move indices `path` has been
  evaluated. Each test happens at most once per search, so any sequence of
  clock readings is one such oracle.
*/
module AlphaBeta {
  import opened Faults
  import opened JavaInt
  import opened Game
  import opened Heuristic

  /** The `initialAlpha` / `initialBeta` fields of an optimizer. */
  datatype Optimizer = Optimizer(initialAlpha: Int32, initialBeta: Int32)

  /**
    `new ABPruningOptimizer()`. Its body constructs a second optimizer with
    the window `MIN_VALUE`/`MAX_VALUE` and drops it, so the fields of this one
    keep Java's default value 0.
  */
  function DefaultOptimizer(): (o: Optimizer)
    ensures o.initialAlpha >= o.initialBeta
    ensures o.initialAlpha == 0 && o.initialBeta == 0
  {
    Optimizer(0, 0)
  }

  /** `new ABPruningOptimizer(initialAlpha, initialBeta)`. */
  function WindowOptimizer(initialAlpha: Int32, initialBeta: Int32): (o: Optimizer)
    ensures o.initialAlpha == initialAlpha && o.initialBeta == initialBeta
  {
    Optimizer(initialAlpha, initialBeta)
  }

  /** The constructor the no-argument one evidently meant to delegate to: the full int range. */
  function IntendedDefaultOptimizer(): (o: Optimizer)
    ensures o.initialAlpha < o.initialBeta
    ensures o.initialAlpha == MinInt && o.initialBeta == MaxInt
  {
    WindowOptimizer(MinInt, MaxInt)
  }

  /** The game rules together with the deadline oracle. */
  datatype Search<!S, !M> = Search(rules: Rules<S, M>, timeUp: seq<nat> -> bool)

  /** The `(score, move)` entry `prune` returns. */
  datatype Eval<M> = Eval(score: Int32, move: M)

  /** The loop state of `prune`: the window and the move remembered so far. */
  datatype Window<M> = Window(alpha: Int32, beta: Int32, best: M)

  /** The loop's exit: the returned entry, the final window, and whether it left early. */
  datatype Sweep<M> = Sweep(score: Int32, move: M, alpha: Int32, beta: Int32, cut: bool)

  function Max(a: int, b: int): int {
    if a < b then b else a
  }

  function Min(a: int, b: int): int {
    if a < b then a else b
  }

  /**
    The bound update after one child scored `score`: WHITE raises alpha,
    BLACK lowers beta, and the remembered move switches to `m` only on a
    strict improvement, so a tie keeps the earlier move.
  */
  function Update<M>(p: Player, score: Int32, w: Window<M>, m: M): (u: Window<M>)
    ensures p == White ==> u.alpha == Max(w.alpha, score) && u.beta == w.beta
    ensures p == Black ==> u.beta == Min(w.beta, score) && u.alpha == w.alpha
    ensures u.best == m || u.best == w.best
    ensures u.best != w.best ==> if p == White then score > w.alpha else score < w.beta
    ensures (if p == White then score <= w.alpha else score >= w.beta) ==> u == w
  {
    if p == White then
      if score > w.alpha then Window(score, w.beta, m) else w
    else
      if score < w.beta then Window(w.alpha, score, m) else w
  }

  /**
    `prune(depth, state, currentPlayer, alpha, beta)`. The first legal move is
    read before the depth test, so an empty move list faults even at a leaf
    and the `isEmpty()` leaf case never yields a result.
  */
  function Prune<S, M>(x: Search<S, M>, path: seq<nat>, depth: nat, s: S, p: Player, alpha: Int32, beta: Int32)
    : (r: Result<Eval<M>>)
    decreases depth, 1, 0
    ensures x.rules.legalMoves(s) == [] ==> r == Err(IndexOutOfBounds)
    ensures r.Ok? ==> r.value.move in x.rules.legalMoves(s)
    ensures depth == 0 && x.rules.legalMoves(s) != [] ==>
      r == Ok(Eval(ComputeHeuristic(x.rules.board(s), x.rules.winner(s), p, alpha, beta), x.rules.legalMoves(s)[0]))
  {
    var moves := x.rules.legalMoves(s);
    if moves == [] then Err(IndexOutOfBounds)
    else if depth == 0 then
      Ok(Eval(ComputeHeuristic(x.rules.board(s), x.rules.winner(s), p, alpha, beta), moves[0]))
    else
      var sweep :- Scan(x, path, depth, s, p, moves, 0, Window(alpha, beta, moves[0]));
      Ok(Eval(sweep.score, sweep.move))
  }

  /**
    The `for` loop of `prune` from the `i`-th legal move on. A full pass
    returns the final alpha (WHITE) or beta (BLACK); leaving early, on the
    deadline or once `alpha >= beta`, returns the last child's own score.
  */
  function Scan<S, M>(x: Search<S, M>, path: seq<nat>, depth: nat, s: S, p: Player, moves: seq<M>, i: nat, w: Window<M>)
    : (r: Result<Sweep<M>>)
    requires depth > 0 && i <= |moves|
    decreases depth, 0, |moves| - i
    ensures r.Ok? ==> r.value.move == w.best || r.value.move in moves[i..]
    ensures r.Ok? && p == White ==> r.value.alpha >= w.alpha && r.value.beta == w.beta
    ensures r.Ok? && p == Black ==> r.value.beta <= w.beta && r.value.alpha == w.alpha
    ensures r.Ok? && r.value.move != w.best ==>
      if p == White then r.value.alpha > w.alpha else r.value.beta < w.beta
    ensures r.Ok? && !r.value.cut ==>
      r.value.score == Seed(p, r.value.alpha, r.value.beta) &&
      forall k :: i <= k < |moves| ==> !x.timeUp(path + [k])
    ensures r.Ok? && r.value.cut ==>
      r.value.alpha >= r.value.beta || exists k :: i <= k < |moves| && x.timeUp(path + [k])
  {
    if i == |moves| then
      Ok(Sweep(Seed(p, w.alpha, w.beta), w.best, w.alpha, w.beta, false))
    else
      var child :- Prune(x, path + [i], depth - 1, x.rules.apply(s, moves[i]), Other(p), w.alpha, w.beta);
      var u := Update(p, child.score, w, moves[i]);
      if x.timeUp(path + [i]) || u.alpha >= u.beta then
        Ok(Sweep(child.score, u.best, u.alpha, u.beta, true))
      else
        Scan(x, path, depth, s, p, moves, i + 1, u)
  }

  /** The recursive `prune` call on the `k`-th move with the window `(a, b)`. */
  function ChildSearch<S, M>(x: Search<S, M>, path: seq<nat>, depth: nat, s: S, p: Player, moves: seq<M>, k: nat,
                             a: Int32, b: Int32): Result<Eval<M>>
    requires depth > 0 && k < |moves|
  {
    Prune(x, path + [k], depth - 1, x.rules.apply(s, moves[k]), Other(p), a, b)
  }

  /**
    The window the loop holds on reaching child `k`, having entered child `i`
    with `w`: the bound updates of children `i` to `k - 1` in order, or the
    fault of the first of them that faults.
  */
  function WindowAt<S, M>(x: Search<S, M>, path: seq<nat>, depth: nat, s: S, p: Player, moves: seq<M>,
                          i: nat, w: Window<M>, k: nat): Result<Window<M>>
    requires depth > 0 && i <= k <= |moves|
    decreases k - i
  {
    if i == k then Ok(w)
    else
      var c :- ChildSearch(x, path, depth, s, p, moves, i, w.alpha, w.beta);
      WindowAt(x, path, depth, s, p, moves, i + 1, Update(p, c.score, w, moves[i]), k)
  }

  /** Children `i` to `k - 1` all left the deadline test false and the window open (alpha < beta). */
  predicate OpenBefore<S, M>(x: Search<S, M>, path: seq<nat>, depth: nat, s: S, p: Player, moves: seq<M>,
                             i: nat, w: Window<M>, k: nat)
    requires depth > 0 && i <= k <= |moves|
  {
    forall j :: i <= j < k ==>
      && !x.timeUp(path + [j])
      && var v := WindowAt(x, path, depth, s, p, moves, i, w, j + 1); v.Ok? && v.value.alpha < v.value.beta
  }

  /**
    Child `k`, searched with the window reached at `k`, ends the loop with the
    exit `e`: `e` carries that child's own score and the window after its
    update, and the deadline fired or the window closed.
  */
  ghost predicate CutsAt<S, M>(x: Search<S, M>, path: seq<nat>, depth: nat, s: S, p: Player, moves: seq<M>,
                         i: nat, w: Window<M>, k: nat, e: Sweep<M>)
    requires depth > 0 && i <= k < |moves|
  {
    var v := WindowAt(x, path, depth, s, p, moves, i, w, k);
    && v.Ok?
    && var c := ChildSearch(x, path, depth, s, p, moves, k, v.value.alpha, v.value.beta);
       && c.Ok? && e.score == c.value.score
       && var u := Update(p, c.value.score, v.value, moves[k]);
          && (x.timeUp(path + [k]) || u.alpha >= u.beta)
          && e.alpha == u.alpha && e.beta == u.beta && e.move == u.best
  }

  /**
    The early exit of `prune`'s loop: it happens at the first child `k` whose
    deadline test fires or after which alpha >= beta, and it returns the
    score child `k` earned with the window reached at `k`, not the bound.
  */
  lemma {:induction false} CutoffReturnsChildScore<S, M>(x: Search<S, M>, path: seq<nat>, depth: nat, s: S, p: Player,
                                                       moves: seq<M>, i: nat, w: Window<M>)
    requires depth > 0 && i <= |moves|
    decreases |moves| - i
    ensures var r := Scan(x, path, depth, s, p, moves, i, w);
      r.Ok? && r.value.cut ==>
        exists k :: i <= k < |moves| && OpenBefore(x, path, depth, s, p, moves, i, w, k)
                    && CutsAt(x, path, depth, s, p, moves, i, w, k, r.value)
  {
    var r := Scan(x, path, depth, s, p, moves, i, w);
    if i < |moves| && r.Ok? && r.value.cut {
      var child := ChildSearch(x, path, depth, s, p, moves, i, w.alpha, w.beta);
      assert child.Ok?;
      var u := Update(p, child.value.score, w, moves[i]);
      assert WindowAt(x, path, depth, s, p, moves, i, w, i) == Ok(w);
      if x.timeUp(path + [i]) || u.alpha >= u.beta {
        assert r == Ok(Sweep(child.value.score, u.best, u.alpha, u.beta, true));
        assert CutsAt(x, path, depth, s, p, moves, i, w, i, r.value);
      } else {
        assert r == Scan(x, path, depth, s, p, moves, i + 1, u);
        CutoffReturnsChildScore(x, path, depth, s, p, moves, i + 1, u);
        var k :| i + 1 <= k < |moves| && OpenBefore(x, path, depth, s, p, moves, i + 1, u, k)
                 && CutsAt(x, path, depth, s, p, moves, i + 1, u, k, r.value);
        OpenBeforeShift(x, path, depth, s, p, moves, i, w, k);
        WindowAtShift(x, path, depth, s, p, moves, i, w, k);
      }
    }
  }

  /**
    A full pass of `prune`'s loop: every child left the deadline test false
    and the window open, and the returned window and move are those the bound
    updates of all the children produce, so the returned score is the final
    alpha (WHITE) or beta (BLACK) of that fold.
  */
  lemma {:induction false} FullPassIsFold<S, M>(x: Search<S, M>, path: seq<nat>, depth: nat, s: S, p: Player,
                                              moves: seq<M>, i: nat, w: Window<M>)
    requires depth > 0 && i <= |moves|
    decreases |moves| - i
    ensures var r := Scan(x, path, depth, s, p, moves, i, w);
      r.Ok? && !r.value.cut ==>
        && OpenBefore(x, path, depth, s, p, moves, i, w, |moves|)
        && WindowAt(x, path, depth, s, p, moves, i, w, |moves|) == Ok(Window(r.value.alpha, r.value.beta, r.value.move))
  {
    var r := Scan(x, path, depth, s, p, moves, i, w);
    if i < |moves| && r.Ok? && !r.value.cut {
      var child := ChildSearch(x, path, depth, s, p, moves, i, w.alpha, w.beta);
      assert child.Ok?;
      var u := Update(p, child.value.score, w, moves[i]);
      assert r == Scan(x, path, depth, s, p, moves, i + 1, u);
      FullPassIsFold(x, path, depth, s, p, moves, i + 1, u);
      OpenBeforeShift(x, path, depth, s, p, moves, i, w, |moves|);
      WindowAtShift(x, path, depth, s, p, moves, i, w, |moves|);
    }
  }

  /** Past child `i`, the windows reached from `i` are those reached from `i + 1` with `i`'s update applied. */
  lemma WindowAtShift<S, M>(x: Search<S, M>, path: seq<nat>, depth: nat, s: S, p: Player, moves: seq<M>,
                            i: nat, w: Window<M>, k: nat)
    requires depth > 0 && i < k <= |moves|
    requires ChildSearch(x, path, depth, s, p, moves, i, w.alpha, w.beta).Ok?
    ensures var u := Update(p, ChildSearch(x, path, depth, s, p, moves, i, w.alpha, w.beta).value.score, w, moves[i]);
      WindowAt(x, path, depth, s, p, moves, i, w, k) == WindowAt(x, path, depth, s, p, moves, i + 1, u, k)
  {
  }

  /** An open child `i` followed by open children up to `k - 1` makes every child from `i` to `k - 1` open. */
  lemma OpenBeforeShift<S, M>(x: Search<S, M>, path: seq<nat>, depth: nat, s: S, p: Player, moves: seq<M>,
                              i: nat, w: Window<M>, k: nat)
    requires depth > 0 && i < k <= |moves|
    requires ChildSearch(x, path, depth, s, p, moves, i, w.alpha, w.beta).Ok?
    requires var u := Update(p, ChildSearch(x, path, depth, s, p, moves, i, w.alpha, w.beta).value.score, w, moves[i]);
      && !x.timeUp(path + [i]) && u.alpha < u.beta
      && OpenBefore(x, path, depth, s, p, moves, i + 1, u, k)
    ensures OpenBefore(x, path, depth, s, p, moves, i, w, k)
  {
    var u := Update(p, ChildSearch(x, path, depth, s, p, moves, i, w.alpha, w.beta).value.score, w, moves[i]);
    forall j | i < j <= k
      ensures WindowAt(x, path, depth, s, p, moves, i, w, j) == WindowAt(x, path, depth, s, p, moves, i + 1, u, j)
    {
      WindowAtShift(x, path, depth, s, p, moves, i, w, j);
    }
  }

  /** `getNextBestMove(depth, state, currentPlayer)`: the move of a search with the optimizer's window. */
  function GetNextBestMove<S, M>(o: Optimizer, x: Search<S, M>, depth: nat, s: S, p: Player): (r: Result<M>)
    ensures r.Ok? ==> r.value in x.rules.legalMoves(s)
    ensures x.rules.legalMoves(s) == [] ==> r == Err(IndexOutOfBounds)
  {
    var e :- Prune(x, [], depth, s, p, o.initialAlpha, o.initialBeta);
    Ok(e.move)
  }

  /**
    With a closed window (`alpha >= beta`) a non-leaf call evaluates its
    first legal move only and returns that child's score with that move.
  */
  lemma ClosedWindowEvaluatesFirstMoveOnly<S, M>(x: Search<S, M>, path: seq<nat>, depth: nat, s: S, p: Player,
                                                 alpha: Int32, beta: Int32)
    requires depth > 0 && x.rules.legalMoves(s) != [] && alpha >= beta
    ensures
      var first := x.rules.legalMoves(s)[0];
      var child := Prune(x, path + [0], depth - 1, x.rules.apply(s, first), Other(p), alpha, beta);
      Prune(x, path, depth, s, p, alpha, beta) ==
        if child.Ok? then Ok(Eval(child.value.score, first)) else Err(child.fault)
  {
    var moves := x.rules.legalMoves(s);
    var w := Window(alpha, beta, moves[0]);
    var child := Prune(x, path + [0], depth - 1, x.rules.apply(s, moves[0]), Other(p), alpha, beta);
    if child.Ok? {
      var u := Update(p, child.value.score, w, moves[0]);
      assert u.alpha >= u.beta && u.best == moves[0];
      assert Scan(x, path, depth, s, p, moves, 0, w) == Ok(Sweep(child.value.score, moves[0], u.alpha, u.beta, true));
    }
  }

  /**
    The optimizer built with `new ABPruningOptimizer()` (the one the
    alpha-beta player uses) always answers with the first legal move, at
    every depth, whatever the game and the deadline.
  */
  lemma DefaultSearchReturnsFirstMove<S, M>(x: Search<S, M>, depth: nat, s: S, p: Player)
    ensures var r := GetNextBestMove(DefaultOptimizer(), x, depth, s, p);
      r.Ok? ==> r.value == x.rules.legalMoves(s)[0]
  {
    if depth > 0 && x.rules.legalMoves(s) != [] {
      ClosedWindowEvaluatesFirstMoveOnly(x, [], depth, s, p, 0, 0);
    }
  }

  /**
    A two-move game: from state 0 WHITE may move to state 1 (a draw) or to
    state 2 (a WHITE win); every other state has the single move 0.
  */
  function TwoMoveGame(): (x: Search<int, int>)
    ensures x.rules.legalMoves(0) == [1, 2]
  {
    Search(
      Rules(
        s => if s == 0 then [1, 2] else [0],
        (s, m) => m,
        s => s != 0,
        s => if s == 1 then Draw else if s == 2 then Won(White) else Nobody,
        s => if s == 0 then White else Black,
        s => s,
        s => seq(6, _ => seq(6, _ => EmptyCell))),
      path => false)
  }

  /** In the two-move game the default optimizer picks the first move, 1. */
  lemma DefaultWindowIgnoresSecondMove()
    ensures GetNextBestMove(DefaultOptimizer(), TwoMoveGame(), 1, 0, White) == Ok(1)
  {
    DefaultSearchReturnsFirstMove(TwoMoveGame(), 1, 0, White);
    assert TwoMoveGame().rules.legalMoves(0) == [1, 2];
  }

  /**
    With the intended full window the same depth-1 search looks at both moves
    and keeps the second, which scores above `MIN_VALUE`.
  */
  lemma IntendedWindowReachesSecondMove()
    ensures GetNextBestMove(IntendedDefaultOptimizer(), TwoMoveGame(), 1, 0, White) == Ok(2)
  {
    var x := TwoMoveGame();
    var w0 := Window(MinInt, MaxInt, 1);
    assert x.rules.legalMoves(0) == [1, 2];
    assert Prune(x, [0], 0, 1, Black, MinInt, MaxInt) == Ok(Eval(MinInt, 0));
    var w1 := Update(White, MinInt, w0, 1);
    assert w1 == w0;
    assert Prune(x, [1], 0, 2, Black, MinInt, MaxInt) == Ok(Eval(-MaxInt, 0));
    var w2 := Update(White, -MaxInt, w1, 2);
    assert w2 == Window(-MaxInt, MaxInt, 2);
    assert Scan(x, [], 1, 0, White, [1, 2], 2, w2) == Ok(Sweep(-MaxInt, 2, -MaxInt, MaxInt, false));
    assert Scan(x, [], 1, 0, White, [1, 2], 1, w1) == Ok(Sweep(-MaxInt, 2, -MaxInt, MaxInt, false));
    assert Scan(x, [], 1, 0, White, [1, 2], 0, w0) == Ok(Sweep(-MaxInt, 2, -MaxInt, MaxInt, false));
  }
}

=== FILE: faults.dfy ===
/** Nullable references and the unchecked Java exceptions the modelled code can raise. */
module Faults {

  /** A Java reference that may be null. */
  datatype Option<+T> = None | Some(value: T)

  /** The runtime exceptions that escape the modelled methods. */
  datatype Fault =
    | IndexOutOfBounds   // `ArrayList.get(0)` on an empty list
    | NullPointer        // a field write or read through a null reference
    | NoSuchElement      // `Collections.max` on an empty collection

  /** Either a value or the exception that aborted the computation; usable with `:-`. */
  datatype Result<+T> = Ok(value: T) | Err(fault: Fault) {

    predicate IsFailure() {
      Err?
    }

    function PropagateFailure<U>(): Result<U>
      requires Err?
    {
      Err(fault)
    }

    function Extract(): T
      requires Ok?
    {
      value
    }
  }
}

=== FILE: game.dfy ===
/**
  The game-state collaborator. The Pentago-Twist rules (move enumeration,
  move application with quadrant twists, end-of-game detection) are not part
  of this model: they enter every operation as the fields of a `Rules` value.
*/
module Game {

  /** `PentagoBoardState.WHITE` (the maximising colour) and `BLACK`. */
  datatype Player = White | Black

  /** The colour that is not `p`. */
  function Other(p: Player): (q: Player)
    ensures q != p
  {
    if p == White then Black else White
  }

  /** `PentagoBoardState.Piece`. */
  datatype Piece = EmptyCell | WhitePiece | BlackPiece

  /** `getWinner()`: a colour, `Board.DRAW`, or `Board.NOBODY` while the game is running. */
  datatype Winner = Won(player: Player) | Draw | Nobody

  /** A winner value a finished playout can return. */
  type Final = w: Winner | w != Nobody witness Draw

  const Size: nat := 6

  predicate IsBoard(b: seq<seq<Piece>>) {
    |b| == Size && forall i :: 0 <= i < |b| ==> |b[i]| == Size
  }

  /** The 6x6 grid of `getBoard()`; `getPieceAt(i, j)` is `b[i][j]`. */
  type Board = b: seq<seq<Piece>> | IsBoard(b) witness seq(6, _ => seq(6, _ => EmptyCell))

  /** The observable behaviour of `PentagoBoardState`, kept uninterpreted. */
  datatype Rules<!S, !M> = Rules(
    legalMoves: S -> seq<M>,   // getAllLegalMoves(), in enumeration order
    apply: (S, M) -> S,        // clone() followed by processMove(m)
    gameOver: S -> bool,       // gameOver()
    winner: S -> Winner,       // getWinner()
    turnPlayer: S -> Player,   // getTurnPlayer()
    turnNumber: S -> int,      // getTurnNumber()
    board: S -> Board          // getBoard()
  )
}

=== FILE: heuristic.dfy ===
/**
  `PentagoHeuristicService.computeHeuristic` of the alpha-beta player: a
  scan of the 6x6 board for same-coloured adjacent pairs, seeded with the
  caller's alpha or beta.

  The scan is split in two layers. `Deltas` is the sequence of signed powers
  of two the scan adds, in execution order; it depends only on the board.
  `Accumulate` adds them to the seed the way the Java compound assignment
  `stateScore += Math.pow(2, k)` does: in double arithmetic, converted back
  to `int` with saturation after every step.
*/
module Heuristic {
  import opened JavaInt
  import opened Game

  type Coord = x: nat | x < 6

  /** The four streak counters of the scan, one per line family. */
  datatype Line = Horizontal | Vertical | ForwardDiagonal | ReverseDiagonal

  /** One comparison of the scan: the piece at (row, col) against its neighbour. */
  datatype Probe = Probe(line: Line, row: Coord, col: Coord, nextRow: Coord, nextCol: Coord)

  /**
    The row and column comparisons in loop order: for each `i` and `j`, the
    horizontal pair (i, j)-(i, j+1) and then the vertical pair (j, i)-(j+1, i).
  */
  function GridProbes(): (ps: seq<Probe>)
    ensures |ps| == 60
  {
    seq(60, k requires 0 <= k < 60 =>
      var i := k / 10;
      var j := k % 10 / 2;
      if k % 2 == 0 then Probe(Horizontal, i, j, i, j + 1)
      else Probe(Vertical, j, i, j + 1, i))
  }

  /** The two main diagonals only: (d, d)-(d+1, d+1) and then (d, 5-d)-(d+1, 4-d). */
  function DiagonalProbes(): (ps: seq<Probe>)
    ensures |ps| == 10
  {
    seq(10, k requires 0 <= k < 10 =>
      var d := k / 2;
      if k % 2 == 0 then Probe(ForwardDiagonal, d, d, d + 1, d + 1)
      else Probe(ReverseDiagonal, d, 5 - d, d + 1, 4 - d))
  }

  /** Every comparison of one unfinished-game evaluation, in execution order. */
  function ScanOrder(): (ps: seq<Probe>)
    ensures |ps| == 70
    // The 60 grid comparisons: outer index `k / 10`, inner index `k % 10 / 2`, a row pair then a column pair.
    ensures forall k :: 0 <= k < 60 ==>
      if k % 2 == 0 then
        && ps[k].line == Horizontal && ps[k].row == k / 10 && ps[k].col == k % 10 / 2
        && ps[k].nextRow == ps[k].row && ps[k].nextCol == ps[k].col + 1
      else
        && ps[k].line == Vertical && ps[k].col == k / 10 && ps[k].row == k % 10 / 2
        && ps[k].nextRow == ps[k].row + 1 && ps[k].nextCol == ps[k].col
    // The 10 diagonal comparisons: cell (d, d) then cell (d, 5 - d), each against the cell one row down.
    ensures forall k :: 60 <= k < 70 ==>
      var d := (k - 60) / 2;
      if k % 2 == 0 then ps[k] == Probe(ForwardDiagonal, d, d, d + 1, d + 1)
      else ps[k] == Probe(ReverseDiagonal, d, 5 - d, d + 1, 4 - d)
  {
    GridProbes() + DiagonalProbes()
  }

  /** The four counters. They start at zero and are never reset between rows or columns. */
  datatype Streaks = Streaks(horizontal: nat, vertical: nat, forward: nat, reverse: nat) {

    function Get(l: Line): nat {
      match l
      case Horizontal => horizontal
      case Vertical => vertical
      case ForwardDiagonal => forward
      case ReverseDiagonal => reverse
    }

    function Set(l: Line, n: nat): Streaks {
      match l
      case Horizontal => this.(horizontal := n)
      case Vertical => this.(vertical := n)
      case ForwardDiagonal => this.(forward := n)
      case ReverseDiagonal => this.(reverse := n)
    }
  }

  const NoStreaks := Streaks(0, 0, 0, 0)

  /** The probe looks at two pieces of the same colour. */
  predicate SamePair(b: Board, p: Probe) {
    var piece := b[p.row][p.col];
    piece != EmptyCell && piece == b[p.nextRow][p.nextCol]
  }

  /**
    One probe with the current streak `k` of its line: a white pair is worth
    `+2^k`, a black pair `-2^k`, and both extend the streak; anything else is
    worth nothing and resets it.
  */
  function Weigh(b: Board, p: Probe, k: nat): (r: (int, nat))
    ensures SamePair(b, p) ==> r.1 == k + 1
    ensures SamePair(b, p) && b[p.row][p.col] == WhitePiece ==> r.0 == Pow2(k)
    ensures SamePair(b, p) && b[p.row][p.col] == BlackPiece ==> r.0 == -(Pow2(k) as int)
    ensures !SamePair(b, p) ==> r == (0, 0)
  {
    var piece := b[p.row][p.col];
    var neighbour := b[p.nextRow][p.nextCol];
    if piece == WhitePiece && neighbour == WhitePiece then (Pow2(k), k + 1)
    else if piece == BlackPiece && neighbour == BlackPiece then (-(Pow2(k) as int), k + 1)
    else (0, 0)
  }

  /** The signed increments of a scan over `probes`, starting from the counters `st`. */
  function Deltas(b: Board, probes: seq<Probe>, st: Streaks): (ds: seq<int>)
    ensures |ds| == |probes|
    decreases |probes|
  {
    if probes == [] then []
    else
      var p := probes[0];
      var w := Weigh(b, p, st.Get(p.line));
      [w.0] + Deltas(b, probes[1..], st.Set(p.line, w.1))
  }

  /**
    The seed plus the increments, converting back to `int` after each step.
    Saturation never moves the score against the sign of the increments.
  */
  function Accumulate(score: Int32, ds: seq<int>): (r: Int32)
    decreases |ds|
    ensures (forall k :: 0 <= k < |ds| ==> ds[k] >= 0) ==> r >= score
    ensures (forall k :: 0 <= k < |ds| ==> ds[k] <= 0) ==> r <= score
  {
    if ds == [] then score else Accumulate(Clamp(score + ds[0]), ds[1..])
  }

  function Sum(ds: seq<int>): int
    decreases |ds|
  {
    if ds == [] then 0 else ds[0] + Sum(ds[1..])
  }

  function Abs(x: int): nat {
    if x < 0 then -x else x
  }

  /** The largest distance a prefix of the increments can move the score. */
  function Magnitude(ds: seq<int>): nat
    decreases |ds|
  {
    if ds == [] then 0 else Abs(ds[0]) + Magnitude(ds[1..])
  }

  /** The board's adjustment to the seed when no step saturates. */
  function Adjustment(b: Board): int {
    Sum(Deltas(b, ScanOrder(), NoStreaks))
  }

  /** The seed: alpha when WHITE is evaluated, beta otherwise. */
  function Seed(p: Player, alpha: Int32, beta: Int32): Int32 {
    if p == White then alpha else beta
  }

  /** The final sign flip applied when BLACK is evaluated. */
  function Orient(p: Player, score: Int32): Int32 {
    if p == Black then Negate(score) else score
  }

  /**
    `computeHeuristic(state, currentPlayer, alpha, beta)` for a state with
    board `b` and winner `w`. A finished game saturates to the int extremes
    without looking at the board or the window; only a WHITE win is scored
    `MAX_VALUE`, a draw counts like a BLACK win.
  */
  function ComputeHeuristic(b: Board, w: Winner, p: Player, alpha: Int32, beta: Int32): (h: Int32)
    ensures w == Won(White) ==> h == (if p == White then MaxInt else -MaxInt)
    ensures w != Nobody && w != Won(White) ==> h == MinInt
  {
    var score :=
      if w == Nobody then Accumulate(Seed(p, alpha, beta), Deltas(b, ScanOrder(), NoStreaks))
      else if w == Won(White) then MaxInt
      else MinInt;
    Orient(p, score)
  }

  /** Saturation never fires while the increments cannot leave the int range. */
  lemma {:induction false} AccumulateExact(score: Int32, ds: seq<int>)
    requires MinInt <= score - Magnitude(ds) && score + Magnitude(ds) <= MaxInt
    ensures Accumulate(score, ds) == score + Sum(ds)
    decreases |ds|
  {
    if ds != [] {
      var next := score + ds[0];
      assert MinInt <= next <= MaxInt;
      AccumulateExact(next, ds[1..]);
    }
  }

  /**
    On an unfinished game the result is seed plus adjustment, sign-flipped for
    BLACK, whenever the board's increments cannot push the seed out of range.
  */
  lemma HeuristicOfRunningGame(b: Board, p: Player, alpha: Int32, beta: Int32)
    requires MinInt <= Seed(p, alpha, beta) - Magnitude(Deltas(b, ScanOrder(), NoStreaks))
    requires Seed(p, alpha, beta) + Magnitude(Deltas(b, ScanOrder(), NoStreaks)) <= MaxInt
    ensures MinInt <= Seed(p, alpha, beta) + Adjustment(b) <= MaxInt
    ensures ComputeHeuristic(b, Nobody, p, alpha, beta) == Orient(p, Seed(p, alpha, beta) + Adjustment(b))
  {
    var ds := Deltas(b, ScanOrder(), NoStreaks);
    SumWithinMagnitude(ds);
    AccumulateExact(Seed(p, alpha, beta), ds);
  }

  lemma {:induction false} SumWithinMagnitude(ds: seq<int>)
    ensures -(Magnitude(ds) as int) <= Sum(ds) <= Magnitude(ds)
    decreases |ds|
  {
    if ds != [] {
      SumWithinMagnitude(ds[1..]);
    }
  }

  /** A probe sequence that never meets a same-coloured pair contributes nothing. */
  lemma {:induction false} QuietProbesAddNothing(b: Board, probes: seq<Probe>, st: Streaks)
    requires forall k :: 0 <= k < |probes| ==> !SamePair(b, probes[k])
    ensures forall k :: 0 <= k < |probes| ==> Deltas(b, probes, st)[k] == 0
    decreases |probes|
  {
    if probes != [] {
      var p := probes[0];
      QuietProbesAddNothing(b, probes[1..], st.Set(p.line, 0));
    }
  }

  lemma {:induction false} AccumulateZeros(score: Int32, ds: seq<int>)
    requires forall k :: 0 <= k < |ds| ==> ds[k] == 0
    ensures Accumulate(score, ds) == score
    decreases |ds|
  {
    if ds != [] {
      AccumulateZeros(score, ds[1..]);
    }
  }

  lemma {:induction false} SumZeros(ds: seq<int>)
    requires forall k :: 0 <= k < |ds| ==> ds[k] == 0
    ensures Sum(ds) == 0
    decreases |ds|
  {
    if ds != [] {
      SumZeros(ds[1..]);
    }
  }

  /**
    A running game whose scanned lines hold no same-coloured adjacent pair
    evaluates to the seed itself, sign-flipped for BLACK.
  */
  lemma QuietBoardKeepsSeed(b: Board, p: Player, alpha: Int32, beta: Int32)
    requires forall k :: 0 <= k < |ScanOrder()| ==> !SamePair(b, ScanOrder()[k])
    ensures ComputeHeuristic(b, Nobody, p, alpha, beta) == Orient(p, Seed(p, alpha, beta))
    ensures Adjustment(b) == 0
  {
    var ds := Deltas(b, ScanOrder(), NoStreaks);
    QuietProbesAddNothing(b, ScanOrder(), NoStreaks);
    AccumulateZeros(Seed(p, alpha, beta), ds);
    SumZeros(ds);
  }

  /** Every cell with its colour exchanged. */
  function SwapColours(b: Board): (s: Board)
    ensures forall i, j :: 0 <= i < 6 && 0 <= j < 6 ==>
      (b[i][j] == WhitePiece <==> s[i][j] == BlackPiece) &&
      (b[i][j] == BlackPiece <==> s[i][j] == WhitePiece) &&
      (b[i][j] == EmptyCell <==> s[i][j] == EmptyCell)
  {
    seq(6, i requires 0 <= i < 6 => seq(6, j requires 0 <= j < 6 => SwapPiece(b[i][j])))
  }

  function SwapPiece(x: Piece): Piece {
    match x
    case EmptyCell => EmptyCell
    case WhitePiece => BlackPiece
    case BlackPiece => WhitePiece
  }

  /** Exchanging the colours keeps every streak and flips the sign of every increment. */
  lemma {:induction false} SwapNegatesDeltas(b: Board, probes: seq<Probe>, st: Streaks)
    ensures forall k :: 0 <= k < |probes| ==> Deltas(SwapColours(b), probes, st)[k] == -Deltas(b, probes, st)[k]
    decreases |probes|
  {
    if probes != [] {
      var p := probes[0];
      var w := Weigh(b, p, st.Get(p.line));
      var w' := Weigh(SwapColours(b), p, st.Get(p.line));
      assert w'.1 == w.1 && w'.0 == -w.0;
      SwapNegatesDeltas(b, probes[1..], st.Set(p.line, w.1));
    }
  }

  lemma {:induction false} SumOfNegation(ds: seq<int>, es: seq<int>)
    requires |ds| == |es|
    requires forall k :: 0 <= k < |ds| ==> es[k] == -ds[k]
    ensures Sum(es) == -Sum(ds)
    ensures Magnitude(es) == Magnitude(ds)
    decreases |ds|
  {
    if ds != [] {
      SumOfNegation(ds[1..], es[1..]);
    }
  }

  /** Exchanging the colours on the board negates the adjustment and keeps its magnitude. */
  lemma SwapNegatesAdjustment(b: Board)
    ensures Adjustment(SwapColours(b)) == -Adjustment(b)
    ensures Magnitude(Deltas(SwapColours(b), ScanOrder(), NoStreaks)) == Magnitude(Deltas(b, ScanOrder(), NoStreaks))
  {
    SwapNegatesScan(b, ScanOrder());
  }

  /** The same for any probe order started from fresh counters. */
  lemma SwapNegatesScan(b: Board, probes: seq<Probe>)
    ensures Sum(Deltas(SwapColours(b), probes, NoStreaks)) == -Sum(Deltas(b, probes, NoStreaks))
    ensures Magnitude(Deltas(SwapColours(b), probes, NoStreaks)) == Magnitude(Deltas(b, probes, NoStreaks))
  {
    SwapNegatesDeltas(b, probes, NoStreaks);
    SumOfNegation(Deltas(b, probes, NoStreaks), Deltas(SwapColours(b), probes, NoStreaks));
  }

  /** The counters after one probe. */
  function Step(b: Board, p: Probe, st: Streaks): Streaks {
    st.Set(p.line, Weigh(b, p, st.Get(p.line)).1)
  }

  /** The counters after the first `k` probes of `probes`. */
  function StreaksAfter(b: Board, probes: seq<Probe>, st: Streaks, k: nat): Streaks
    requires k <= |probes|
    decreases k
  {
    if k == 0 then st else Step(b, probes[k - 1], StreaksAfter(b, probes, st, k - 1))
  }

  lemma {:induction false} StreaksAfterShift(b: Board, probes: seq<Probe>, st: Streaks, k: nat)
    requires 1 <= k <= |probes|
    decreases k
    ensures StreaksAfter(b, probes[1..], Step(b, probes[0], st), k - 1) == StreaksAfter(b, probes, st, k)
  {
    if k > 1 {
      StreaksAfterShift(b, probes, st, k - 1);
      assert probes[1..][k - 2] == probes[k - 1];
    }
  }

  /** The `k`-th increment is the weight of the `k`-th probe under the counters the earlier probes left. */
  lemma {:induction false} DeltaAt(b: Board, probes: seq<Probe>, st: Streaks, k: nat)
    requires k < |probes|
    decreases k
    ensures Deltas(b, probes, st)[k] == Weigh(b, probes[k], StreaksAfter(b, probes, st, k).Get(probes[k].line)).0
  {
    if k > 0 {
      var st1 := Step(b, probes[0], st);
      DeltaAt(b, probes[1..], st1, k - 1);
      StreaksAfterShift(b, probes, st, k);
      assert probes[1..][k - 1] == probes[k];
    }
  }

  /**
    The horizontal counter survives the end of a row. When all five pairs of
    row 0 are white, the first pair of row 1 is the sixth white pair in a
    row for the counter and is worth 2^5 = 32, not 1.
  */
  lemma StreakCarriesAcrossRows(b: Board)
    requires forall j :: 0 <= j < 6 ==> b[0][j] == WhitePiece
    requires b[1][0] == WhitePiece && b[1][1] == WhitePiece
    ensures Deltas(b, ScanOrder(), NoStreaks)[10] == Pow2(5) == 32
  {
    var ps := ScanOrder();
    forall k | 0 <= k < 10 && k % 2 == 0
      ensures ps[k] == Probe(Horizontal, 0, k / 2, 0, k / 2 + 1)
    {
    }
    forall k | 0 <= k < 10 && k % 2 == 1
      ensures ps[k].line == Vertical
    {
    }
    assert StreaksAfter(b, ps, NoStreaks, 1).horizontal == 1;
    assert StreaksAfter(b, ps, NoStreaks, 2).horizontal == 1;
    assert StreaksAfter(b, ps, NoStreaks, 3).horizontal == 2;
    assert StreaksAfter(b, ps, NoStreaks, 4).horizontal == 2;
    assert StreaksAfter(b, ps, NoStreaks, 5).horizontal == 3;
    assert StreaksAfter(b, ps, NoStreaks, 6).horizontal == 3;
    assert StreaksAfter(b, ps, NoStreaks, 7).horizontal == 4;
    assert StreaksAfter(b, ps, NoStreaks, 8).horizontal == 4;
    assert StreaksAfter(b, ps, NoStreaks, 9).horizontal == 5;
    assert StreaksAfter(b, ps, NoStreaks, 10).horizontal == 5;
    assert ps[10] == Probe(Horizontal, 1, 0, 1, 1);
    DeltaAt(b, ps, NoStreaks, 10);
  }
}

=== FILE: javaint.dfy ===
/** The parts of Java's 32-bit `int` arithmetic that the heuristic relies on. */
module JavaInt {

  const MinInt: int := -0x8000_0000
  const MaxInt: int := 0x7fff_ffff

  /** Values of a Java `int`. */
  type Int32 = x: int | MinInt <= x <= MaxInt

  /** `(int) d` for an integral double `d`: the narrowing conversion saturates at the int range. */
  function Clamp(x: int): (r: Int32)
    ensures MinInt <= x <= MaxInt ==> r == x
    ensures x < MinInt ==> r == MinInt
    ensures x > MaxInt ==> r == MaxInt
  {
    if x < MinInt then MinInt else if x > MaxInt then MaxInt else x
  }

  /** Unary minus on a Java `int`: it wraps, so the most negative value is its own negation. */
  function Negate(x: Int32): (r: Int32)
    ensures x != MinInt ==> r == -x
    ensures x == MinInt ==> r == MinInt
  {
    if x == MinInt then MinInt else -x
  }

  /** `Math.pow(2, k)`; exact in a double for every exponent the heuristic reaches. */
  function Pow2(k: nat): (r: nat)
    ensures r >= 1
  {
    if k == 0 then 1 else 2 * Pow2(k - 1)
  }
}

=== FILE: mytools.dfy ===
/**
  `MyTools`: the Monte Carlo node and tree helpers with integer visit and
  win counts, board-state comparison, and UCT child selection.
*/
module MyTools {
  import opened Faults
  import opened JavaInt
  import opened Game
  import opened SearchTree

  /** `MyTools.Tree`: an arena of `Node`s with `int` counts, and the root. */
  datatype Tree<S, M> = Tree(arena: Arena<S, M, int>, root: NodeId)

  /** `new Node(move, state, parent)`. */
  function CreateNode<S, M>(move: Option<M>, state: S, parent: Option<NodeId>): (n: Node<S, M, int>)
    ensures n.visits == 0 && n.wins == 0 && n.children == []
    ensures n.state == state && n.move == move && n.parent == parent
  {
    NewNode(state, move, parent, 0)
  }

  // ----- Getters -----

  /**
    `getRandomChild()`: null without children, otherwise the child at the
    index `rand.nextInt(children.size())` drew; `draw` is that draw before it
    is reduced to the list's length.
  */
  function GetRandomChild<S, M, W>(t: Arena<S, M, W>, n: NodeId, draw: nat): (r: Option<NodeId>)
    requires Linked(t) && n in t.nodes
    ensures r.None? <==> t.nodes[n].children == []
    ensures r.Some? ==> r.value in t.nodes[n].children && r.value in t.nodes && t.nodes[r.value].parent == Some(n)
  {
    var cs := t.nodes[n].children;
    if cs == [] then None
    else
      var c := cs[draw % |cs|];
      assert c in cs;
      Some(c)
  }

  /** Every child is the outcome of some draw. */
  lemma EveryChildCanBeDrawn<S, M, W>(t: Arena<S, M, W>, n: NodeId, c: NodeId)
    requires Linked(t) && n in t.nodes && c in t.nodes[n].children
    ensures exists draw: nat :: GetRandomChild(t, n, draw) == Some(c)
  {
    var cs := t.nodes[n].children;
    var i :| 0 <= i < |cs| && cs[i] == c;
    assert i % |cs| == i;
    assert GetRandomChild(t, n, i) == Some(c);
  }

  /** The comparator key of `getChildWithMaxScore`: the child's `winCount`. */
  function WinKey<S, M>(parent: Node<S, M, int>, child: Node<S, M, int>): real {
    child.wins as real
  }

  /**
    `getChildWithMaxScore()`: a child with the largest `winCount`, the
    earliest of equals; `NoSuchElementException` without children.
  */
  function GetChildWithMaxScore<S, M>(t: Arena<S, M, int>, n: NodeId): (r: Result<NodeId>)
    requires Linked(t) && n in t.nodes
    ensures r.Err? <==> t.nodes[n].children == []
    ensures r.Err? ==> r.fault == NoSuchElement
    ensures r.Ok? ==> r.value in t.nodes[n].children && r.value in t.nodes
    ensures r.Ok? ==> forall c :: c in t.nodes[n].children ==> t.nodes[c].wins <= t.nodes[r.value].wins
    ensures r.Ok? ==> forall j :: (0 <= j < |t.nodes[n].children| &&
      t.nodes[t.nodes[n].children[j]].wins >= t.nodes[r.value].wins) ==> r.value in t.nodes[n].children[..j + 1]
  {
    BestChild(t, n, WinKey)
  }

  /** What `equalsBoard` compares: every cell, the turn player, the winner and the turn number. */
  predicate SameObservation<S, M>(g: Rules<S, M>, s1: S, s2: S) {
    && g.board(s1) == g.board(s2)
    && g.turnPlayer(s1) == g.turnPlayer(s2)
    && g.winner(s1) == g.winner(s2)
    && g.turnNumber(s1) == g.turnNumber(s2)
  }

  /**
    `equalsBoard(s1, s2)`: the same object, or two states that agree cell by
    cell and on turn player, winner and turn number.
  */
  method EqualsBoard<S(==), M>(g: Rules<S, M>, s1: S, s2: S) returns (r: bool)
    ensures r <==> SameObservation(g, s1, s2)
  {
    if s1 == s2 {
      return true;
    }
    var b1 := g.board(s1);
    var b2 := g.board(s2);
    var i := 0;
    while i < |b1|
      invariant 0 <= i <= |b1|
      invariant forall a :: 0 <= a < i ==> b1[a] == b2[a]
    {
      var j := 0;
      while j < |b1[0]|
        invariant 0 <= j <= |b1[0]|
        invariant forall c :: 0 <= c < j ==> b1[i][c] == b2[i][c]
      {
        if b1[i][j] != b2[i][j] {
          return false;
        }
        j := j + 1;
      }
      assert b1[i] == b2[i];
      i := i + 1;
    }
    assert b1 == b2;
    if g.turnPlayer(s1) != g.turnPlayer(s2) {
      return false;
    }
    if g.winner(s1) != g.winner(s2) {
      return false;
    }
    if g.turnNumber(s1) != g.turnNumber(s2) {
      return false;
    }
    return true;
  }

  /** `equalsBoard` is an equivalence relation. */
  lemma SameObservationIsEquivalence<S, M>(g: Rules<S, M>, s1: S, s2: S, s3: S)
    ensures SameObservation(g, s1, s1)
    ensures SameObservation(g, s1, s2) ==> SameObservation(g, s2, s1)
    ensures SameObservation(g, s1, s2) && SameObservation(g, s2, s3) ==> SameObservation(g, s1, s3)
  {
  }

  /**
    `getChildWithState(state)`: the first child whose state `equalsBoard`
    the argument, or null if there is none.
  */
  function GetChildWithState<S, M, W>(g: Rules<S, M>, t: Arena<S, M, W>, n: NodeId, s: S): (r: Option<NodeId>)
    requires Linked(t) && n in t.nodes
    ensures r.None? <==> forall c :: c in t.nodes[n].children ==> !SameObservation(g, t.nodes[c].state, s)
    ensures r.Some? ==> r.value in t.nodes && SameObservation(g, t.nodes[r.value].state, s)
    ensures r.Some? ==> exists i :: (0 <= i < |t.nodes[n].children| && t.nodes[n].children[i] == r.value &&
      forall j :: 0 <= j < i ==> !SameObservation(g, t.nodes[t.nodes[n].children[j]].state, s))
  {
    FirstWithState(g, t, t.nodes[n].children, s, 0)
  }

  /** The loop of `getChildWithState` from position `i` on. */
  function FirstWithState<S, M, W>(g: Rules<S, M>, t: Arena<S, M, W>, cs: seq<NodeId>, s: S, i: nat)
    : (r: Option<NodeId>)
    requires i <= |cs|
    requires forall k :: 0 <= k < |cs| ==> cs[k] in t.nodes
    decreases |cs| - i
    ensures r.None? <==> forall k :: i <= k < |cs| ==> !SameObservation(g, t.nodes[cs[k]].state, s)
    ensures r.Some? ==> exists k :: (i <= k < |cs| && cs[k] == r.value &&
      SameObservation(g, t.nodes[cs[k]].state, s) &&
      forall j :: i <= j < k ==> !SameObservation(g, t.nodes[cs[j]].state, s))
  {
    if i == |cs| then None
    else if SameObservation(g, t.nodes[cs[i]].state, s) then Some(cs[i])
    else FirstWithState(g, t, cs, s, i + 1)
  }

  // ----- Re-rooting -----

  /** The nodes whose walk to the top passes through `n`: `n` and its descendants. */
  function Subtree<S, M, W>(t: Arena<S, M, W>, n: NodeId): (kept: set<NodeId>)
    requires Linked(t)
    ensures forall x {:trigger x in kept} :: x in kept <==> x in t.nodes && n in Ancestry(t, x)
  {
    set x | x in t.nodes && n in Ancestry(t, x)
  }

  /**
    `pruneTree(node)`: `node` becomes the root with a null parent; a null
    argument faults. Only the new root's descendants stay reachable, so the
    arena keeps exactly those (the rest is garbage in Java).
  */
  function PruneTreeToNode<S, M>(tr: Tree<S, M>, node: Option<NodeId>): (r: Result<Tree<S, M>>)
    requires Linked(tr.arena)
    requires node.Some? ==> node.value in tr.arena.nodes
    ensures node.None? <==> r == Err(NullPointer)
    ensures r.Ok? ==> var t := tr.arena; var u := r.value.arena; var n := node.value;
      && Linked(u)
      && r.value.root == n && n in u.nodes && u.nodes[n].parent == None
      && (forall x {:trigger x in u.nodes} :: x in u.nodes <==> x in t.nodes && n in Ancestry(t, x))
      && (forall x {:trigger u.nodes[x]} :: x in u.nodes ==> u.nodes[x] == if x == n then t.nodes[x].(parent := None) else t.nodes[x])
  {
    match node
    case None => Err(NullPointer)
    case Some(n) =>
      var t := tr.arena;
      var kept := Subtree(t, n);
      var u := Arena(map x | x in kept :: if x == n then t.nodes[x].(parent := None) else t.nodes[x], t.next);
      assert PrunedAt(t, n, u);
      PrunedIsLinked(t, n, u);
      Ok(Tree(u, n))
  }

  /** What re-rooting at `n` leaves: the descendants of `n`, unchanged except that `n` loses its parent. */
  ghost predicate PrunedAt<S, M, W>(t: Arena<S, M, W>, n: NodeId, u: Arena<S, M, W>)
    requires Linked(t)
  {
    && n in t.nodes && u.next == t.next
    && (forall x {:trigger x in u.nodes} :: x in u.nodes <==> x in t.nodes && n in Ancestry(t, x))
    && (forall x {:trigger u.nodes[x]} :: x in u.nodes ==> u.nodes[x] == if x == n then t.nodes[x].(parent := None) else t.nodes[x])
  }

  /** Keeping the descendants of `n` and detaching `n` from its parent leaves a forest. */
  lemma PrunedIsLinked<S, M, W>(t: Arena<S, M, W>, n: NodeId, u: Arena<S, M, W>)
    requires Linked(t) && PrunedAt(t, n, u)
    ensures Linked(u)
  {
    forall x | x in u.nodes && u.nodes[x].parent.Some?
      ensures var q := u.nodes[x].parent.value; q in u.nodes && q < x && x in u.nodes[q].children
    {
      PrunedParentKept(t, n, u, x);
    }
    forall x, c | x in u.nodes && c in u.nodes[x].children
      ensures c in u.nodes && u.nodes[c].parent == Some(x)
    {
      PrunedChildKept(t, n, u, x, c);
    }
    forall x, k | x in u.nodes && 0 <= k < |u.nodes[x].children|
      ensures u.nodes[x].children[k] in u.nodes
    {
      PrunedChildKept(t, n, u, x, u.nodes[x].children[k]);
    }
  }

  lemma PrunedParentKept<S, M, W>(t: Arena<S, M, W>, n: NodeId, u: Arena<S, M, W>, x: NodeId)
    requires Linked(t) && PrunedAt(t, n, u) && x in u.nodes && u.nodes[x].parent.Some?
    ensures var q := u.nodes[x].parent.value; q in u.nodes && q < x && x in u.nodes[q].children
  {
    AncestryStep(t, x);
  }

  lemma PrunedChildKept<S, M, W>(t: Arena<S, M, W>, n: NodeId, u: Arena<S, M, W>, x: NodeId, c: NodeId)
    requires Linked(t) && PrunedAt(t, n, u) && x in u.nodes && c in u.nodes[x].children
    ensures c in u.nodes && u.nodes[c].parent == Some(x)
  {
    assert c in t.nodes[x].children;
    AncestryStep(t, c);
  }

  /** `short` is a non-empty prefix of `path` that ends at `n`. */
  predicate PrefixEndingAt(short: seq<NodeId>, path: seq<NodeId>, n: NodeId) {
    && 0 < |short| <= |path| && short[|short| - 1] == n
    && forall k :: 0 <= k < |short| ==> short[k] == path[k]
  }

  /** After re-rooting at `n`, every walk is the old walk cut off at `n`. */
  lemma {:induction false} PrunedWalkStopsAtRoot<S, M, W>(t: Arena<S, M, W>, n: NodeId, u: Arena<S, M, W>, x: NodeId)
    requires Linked(t) && Linked(u) && PrunedAt(t, n, u) && x in u.nodes
    ensures PrefixEndingAt(Ancestry(u, x), Ancestry(t, x), n)
    decreases x
  {
    if x != n {
      var q := PrunedWalkStep(t, n, u, x);
      PrunedWalkStopsAtRoot(t, n, u, q);
      ConsKeepsPrefix(x, Ancestry(u, q), Ancestry(t, q), n);
    } else {
      assert Ancestry(u, n) == [n];
    }
  }

  lemma ConsKeepsPrefix(x: NodeId, short: seq<NodeId>, path: seq<NodeId>, n: NodeId)
    requires PrefixEndingAt(short, path, n)
    ensures PrefixEndingAt([x] + short, [x] + path, n)
  {
  }

  /** Above a node other than `n`, both walks continue at the same parent. */
  lemma PrunedWalkStep<S, M, W>(t: Arena<S, M, W>, n: NodeId, u: Arena<S, M, W>, x: NodeId) returns (q: NodeId)
    requires Linked(t) && Linked(u) && PrunedAt(t, n, u) && x in u.nodes && x != n
    ensures q < x && q in u.nodes
    ensures Ancestry(t, x) == [x] + Ancestry(t, q) && Ancestry(u, x) == [x] + Ancestry(u, q)
  {
    AncestryStep(t, x);
    q := t.nodes[x].parent.value;
    PrunedParentKept(t, n, u, x);
    AncestryStep(u, x);
  }

  /**
    `pruneTree(state)`: re-root at the root's child whose state
    `equalsBoard` the argument; without one the root becomes null and the
    write to its parent faults.
  */
  function PruneTreeToState<S, M>(g: Rules<S, M>, tr: Tree<S, M>, s: S): (r: Result<Tree<S, M>>)
    requires Linked(tr.arena) && tr.root in tr.arena.nodes
    ensures r.Err? <==> forall c :: c in tr.arena.nodes[tr.root].children ==> !SameObservation(g, tr.arena.nodes[c].state, s)
    ensures r.Ok? ==> && r.value.root in tr.arena.nodes[tr.root].children && r.value.root in r.value.arena.nodes
                      && SameObservation(g, r.value.arena.nodes[r.value.root].state, s)
                      && r.value.arena.nodes[r.value.root].parent == None
    ensures r.Ok? ==> var cs := tr.arena.nodes[tr.root].children;
      exists i :: 0 <= i < |cs| && cs[i] == r.value.root &&
        forall j :: 0 <= j < i ==> !SameObservation(g, tr.arena.nodes[cs[j]].state, s)
    ensures r.Ok? ==> var t := tr.arena; var u := r.value.arena; var n := r.value.root;
      && (forall x {:trigger x in u.nodes} :: x in u.nodes <==> x in t.nodes && n in Ancestry(t, x))
      && (forall x {:trigger u.nodes[x]} :: x in u.nodes ==> u.nodes[x] == if x == n then t.nodes[x].(parent := None) else t.nodes[x])
  {
    var child := GetChildWithState(g, tr.arena, tr.root, s);
    PruneTreeToNode(tr, child)
  }

  // ----- Upper confidence bound -----

  /**
    `uctValue(totalVisit, nodeWinScore, nodeVisit)`: an unvisited node scores
    the `Integer.MAX_VALUE` sentinel; a visited one scores whatever the
    exploitation/exploration formula `formula` gives.
  */
  function UctValue(total: int, wins: int, visits: int, formula: (int, int, int) -> real): (v: real)
    ensures visits == 0 ==> v == MaxInt as real
  {
    if visits == 0 then MaxInt as real else formula(total, wins, visits)
  }

  /** The UCT value `findBestNodeWithUCT` gives child `c` of `n`: the parent's visit count is the total. */
  function ChildUct<S, M>(t: Arena<S, M, int>, n: NodeId, c: NodeId, formula: (int, int, int) -> real): real
    requires n in t.nodes && c in t.nodes
  {
    UctValue(t.nodes[n].visits, t.nodes[c].wins, t.nodes[c].visits, formula)
  }

  /** `findBestNodeWithUCT(node)`: the first child with the largest UCT value. */
  function FindBestNodeWithUct<S, M>(t: Arena<S, M, int>, n: NodeId, formula: (int, int, int) -> real)
    : (r: Result<NodeId>)
    requires Linked(t) && n in t.nodes
    ensures r.Err? <==> t.nodes[n].children == []
    ensures r.Ok? ==> r.value in t.nodes[n].children && r.value in t.nodes
    ensures r.Ok? ==> forall c :: c in t.nodes[n].children ==>
      ChildUct(t, n, c, formula) <= ChildUct(t, n, r.value, formula)
    ensures r.Ok? ==> forall j :: (0 <= j < |t.nodes[n].children| &&
      ChildUct(t, n, t.nodes[n].children[j], formula) >= ChildUct(t, n, r.value, formula)) ==>
      r.value in t.nodes[n].children[..j + 1]
  {
    BestChild(t, n, (p: Node<S, M, int>, c: Node<S, M, int>) => UctValue(p.visits, c.wins, c.visits, formula))
  }

  /**
    When every visited child's formula value stays below the sentinel, UCT
    selection picks the first unvisited child.
  */
  lemma FirstUnvisitedChildIsSelected<S, M>(t: Arena<S, M, int>, n: NodeId, formula: (int, int, int) -> real, k: nat)
    requires Linked(t) && n in t.nodes
    requires var cs := t.nodes[n].children;
      && k < |cs| && t.nodes[cs[k]].visits == 0
      && (forall j :: 0 <= j < k ==> t.nodes[cs[j]].visits != 0)
      && (forall c :: c in cs && t.nodes[c].visits != 0 ==>
            formula(t.nodes[n].visits, t.nodes[c].wins, t.nodes[c].visits) < MaxInt as real)
    ensures FindBestNodeWithUct(t, n, formula) == Ok(t.nodes[n].children[k])
  {
    var cs := t.nodes[n].children;
    var r := FindBestNodeWithUct(t, n, formula);
    assert cs[k] in cs;
    var top := ChildUct(t, n, cs[k], formula);
    assert top == MaxInt as real;
    assert r.Ok?;
    var best := r.value;
    assert ChildUct(t, n, best, formula) >= top;
    assert best in cs[..k + 1];
    var i :| 0 <= i <= k && cs[i] == best;
    if i < k {
      assert false;
    }
    assert best == cs[k];
  }
}

=== FILE: reuseengine.dfy ===
/**
  The v2 Monte Carlo engine (`mcts/v2/MonteCarloUCT`): one tree kept across
  moves. After answering, the engine indexes the grandchildren reached
  through its own move by board state; the next search starts at the node
  for the board the opponent left, when there is one.

  Node statistics are `double`s here, so the arena's win counts are reals.
  The ordering `Collections.max` uses on children is `MCTSNode.compareTo`,
  which is not part of this model: it is the parameter `order`, a score of
  a child given its parent.
*/
module ReuseEngine {
  import opened Faults
  import opened JavaInt
  import opened Game
  import opened SearchTree

  type Tree<S, M> = Arena<S, M, real>

  /** The fields `root` and `descendantLookup`. */
  datatype Engine<S(==), M> = Engine(arena: Tree<S, M>, root: Option<NodeId>, lookup: map<S, NodeId>)

  /** The object graph the training file holds: a tree and the node written as its root. */
  datatype Snapshot<S, M> = Snapshot(arena: Tree<S, M>, root: NodeId)

  /** A finished playout: the tree after the sentinel write, and the reported winner. */
  datatype Playout<S, M> = Playout(arena: Tree<S, M>, winner: Winner)

  /** The answer of `nextMove` and the engine it leaves behind. */
  datatype Answer<S(==), M> = Answer(engine: Engine<S, M>, move: M)

  /** The engine after `createTrainingFile`, and the snapshot written to the file. */
  datatype Saved<S(==), M> = Saved(engine: Engine<S, M>, file: Snapshot<S, M>)

  /** Every node has won at most as often as it was visited. */
  predicate WinsWithinVisits<S, M>(t: Tree<S, M>) {
    forall x :: x in t.nodes ==> t.nodes[x].wins <= t.nodes[x].visits as real
  }

  /**
    The invariants the tree keeps under the code as written. Wins within
    visits is not among them: the backpropagation as written breaks it.
  */
  ghost predicate ValidTree<S, M>(g: Rules<S, M>, t: Tree<S, M>) {
    && Linked(t) && Consistent(g, t)
    && VisitsNonNegative(t) && VisitsCoverChildren(t)
  }

  /** Every entry of the lookup names a node of the tree holding that board. */
  predicate LookupSound<S(==), M>(t: Tree<S, M>, lookup: map<S, NodeId>) {
    forall s :: s in lookup ==> lookup[s] in t.nodes && t.nodes[lookup[s]].state == s
  }

  ghost predicate Valid<S, M>(g: Rules<S, M>, e: Engine<S, M>) {
    && ValidTree(g, e.arena)
    && (e.root.Some? ==> e.root.value in e.arena.nodes)
    && LookupSound(e.arena, e.lookup)
  }

  /** `new MonteCarloUCT()`: no tree, no root, an empty lookup. */
  function NewEngine<S(==), M>(): (e: Engine<S, M>)
    ensures e.root == None && e.lookup == map[] && e.arena.nodes == map[]
  {
    Engine(Arena(map[], 0), None, map[])
  }

  lemma NewEngineValid<S, M>(g: Rules<S, M>)
    ensures Valid(g, NewEngine<S, M>())
  {
  }

  // ----- Choosing the root -----

  /**
    The root choice at the start of `train(board)`: keep the root when it
    holds `board`, else take the node the lookup has for `board`, else start
    a fresh node. The old tree stays where it is, so a reused node keeps its
    parent and its statistics.
  */
  function ChooseRoot<S(==), M>(g: Rules<S, M>, e: Engine<S, M>, board: S): (r: Engine<S, M>)
    requires Valid(g, e)
    ensures r.root.Some? && r.root.value in r.arena.nodes && r.arena.nodes[r.root.value].state == board
    ensures r.lookup == e.lookup
    ensures e.root.Some? && e.arena.nodes[e.root.value].state == board ==> r == e
    ensures !(e.root.Some? && e.arena.nodes[e.root.value].state == board) && board in e.lookup ==>
      r.root == Some(e.lookup[board]) && r.arena == e.arena
    ensures !(e.root.Some? && e.arena.nodes[e.root.value].state == board) && board !in e.lookup ==>
      && r.root == Some(e.arena.next)
      && e.arena.next !in e.arena.nodes
      && r.arena == Arena(e.arena.nodes[e.arena.next := NewNode(board, None, None, 0.0)], e.arena.next + 1)
  {
    if e.root.Some? && e.arena.nodes[e.root.value].state == board then e
    else if board in e.lookup then e.(root := Some(e.lookup[board]))
    else
      var t := e.arena;
      assert t.next !in t.nodes;
      Engine(Arena(t.nodes[t.next := NewNode(board, None, None, 0.0)], t.next + 1), Some(t.next), e.lookup)
  }

  /** Starting a fresh root adds a parentless, childless node and keeps every invariant. */
  lemma ChooseRootKeepsValid<S, M>(g: Rules<S, M>, e: Engine<S, M>, board: S)
    requires Valid(g, e)
    ensures Valid(g, ChooseRoot(g, e, board)) && Grows(e.arena, ChooseRoot(g, e, board).arena)
  {
    var r := ChooseRoot(g, e, board);
    if r.arena != e.arena {
      var t := e.arena;
      var u := r.arena;
      var n := t.next;
      assert u.nodes == t.nodes[n := NewNode(board, None, None, 0.0)];
      forall x | x in t.nodes
        ensures u.nodes[x] == t.nodes[x]
      {
        assert x < n;
      }
      FreshRootKeepsLinks(t, u, n);
      ChildVisitsFrame(t, u, []);
      forall x | x in u.nodes
        ensures u.nodes[x].visits >= ChildVisits(u, u.nodes[x].children)
      {
        if x != n {
          FreshRootKeepsChildVisits(t, u, n, t.nodes[x].children);
        }
      }
    }
  }

  lemma FreshRootKeepsLinks<S, M>(t: Tree<S, M>, u: Tree<S, M>, n: NodeId)
    requires Linked(t) && n == t.next && u.next == n + 1
    requires u.nodes.Keys == t.nodes.Keys + {n}
    requires forall x :: x in t.nodes ==> u.nodes[x] == t.nodes[x]
    requires u.nodes[n].parent == None && u.nodes[n].children == []
    ensures Linked(u)
  {
    forall x, c | x in u.nodes && c in u.nodes[x].children
      ensures c in u.nodes && u.nodes[c].parent == Some(x)
    {
      assert x in t.nodes && c in t.nodes[x].children;
    }
    forall x, k | x in u.nodes && 0 <= k < |u.nodes[x].children|
      ensures u.nodes[x].children[k] in u.nodes
    {
      assert x in t.nodes && t.nodes[x].children[k] in t.nodes;
    }
  }

  lemma {:induction false} FreshRootKeepsChildVisits<S, M>(t: Tree<S, M>, u: Tree<S, M>, n: NodeId, cs: seq<NodeId>)
    requires n !in t.nodes && u.nodes.Keys == t.nodes.Keys + {n} && u.nodes[n].visits == 0
    requires forall x :: x in t.nodes ==> u.nodes[x] == t.nodes[x]
    ensures ChildVisits(u, cs) == ChildVisits(t, cs)
    decreases |cs|
  {
    if cs != [] {
      FreshRootKeepsChildVisits(t, u, n, cs[1..]);
    }
  }

  // ----- One round of `train` -----

  /** The child `(int) (Math.random() * size)` picks, or the leaf itself when it has no children. */
  function PickExplore<S, M>(t: Tree<S, M>, leaf: NodeId, draw: nat): (x: NodeId)
    requires Linked(t) && leaf in t.nodes
    ensures x in t.nodes
    ensures t.nodes[leaf].children == [] <==> x == leaf
    ensures x != leaf ==> x in t.nodes[leaf].children && t.nodes[x].parent == Some(leaf)
  {
    var cs := t.nodes[leaf].children;
    if cs == [] then leaf
    else
      var c := cs[draw % |cs|];
      assert c in cs;
      c
  }

  /**
    `simulate(node, strategy)`. A finished state that the player to move has
    not won (a draw included) sets the parent's `wins` to `Integer.MIN_VALUE`
    (a node without a parent faults) and reports the state's winner; a
    finished state won by the player to move reports that winner; otherwise
    the playout runs to the end and reports `rollout`.
  */
  function Simulate<S, M>(g: Rules<S, M>, t: Tree<S, M>, n: NodeId, rollout: Final): (r: Result<Playout<S, M>>)
    requires Linked(t) && n in t.nodes
    ensures var s := t.nodes[n].state;
      r.Err? <==> g.gameOver(s) && g.winner(s) != Won(g.turnPlayer(s)) && t.nodes[n].parent == None
    ensures r.Err? ==> r.fault == NullPointer
    ensures r.Ok? ==> r.value.winner == (if g.gameOver(t.nodes[n].state) then g.winner(t.nodes[n].state) else rollout)
    ensures r.Ok? ==> SameShape(t, r.value.arena)
    ensures r.Ok? ==> forall x :: x in t.nodes ==> r.value.arena.nodes[x].visits == t.nodes[x].visits
    ensures r.Ok? ==> forall x :: x in t.nodes ==>
      r.value.arena.nodes[x].wins ==
        (if Sentinel(g, t.nodes[n].state) && Some(x) == t.nodes[n].parent then MinInt as real else t.nodes[x].wins)
  {
    var s := t.nodes[n].state;
    if Sentinel(g, s) then
      match t.nodes[n].parent
      case None => Err(NullPointer)
      case Some(q) =>
        var parent := t.nodes[q];
        Ok(Playout(Arena(t.nodes[q := parent.(wins := MinInt as real)], t.next), g.winner(s)))
    else if g.gameOver(s) then Ok(Playout(t, g.winner(s)))
    else Ok(Playout(t, rollout))
  }

  /** The test guarding the sentinel write in `simulate`. */
  predicate Sentinel<S, M>(g: Rules<S, M>, s: S) {
    g.gameOver(s) && g.winner(s) != Won(g.turnPlayer(s))
  }

  /**
    The credit `backPropagate` gives for the node with state `s`: half a win
    on a draw, a whole win when the player to move at `s` is not the winner,
    nothing otherwise.
  */
  function Credit<S, M>(g: Rules<S, M>, s: S, w: Winner): (c: real)
    ensures 0.0 <= c <= 1.0
    ensures w == Draw <==> c == 0.5
    ensures c == 0.0 <==> w == Won(g.turnPlayer(s))
    ensures w != Draw && w != Won(g.turnPlayer(s)) ==> c == 1.0
  {
    if w == Draw then 0.5
    else if w != Won(g.turnPlayer(s)) then 1.0
    else 0.0
  }

  /** Node `n` gains a visit. */
  function Visit<S, M>(t: Tree<S, M>, n: NodeId): (u: Tree<S, M>)
    requires n in t.nodes
    ensures SameShape(t, u)
    ensures u.nodes[n].visits == t.nodes[n].visits + 1 && u.nodes[n].wins == t.nodes[n].wins
    ensures forall x {:trigger u.nodes[x]} :: x in t.nodes && x != n ==> u.nodes[x] == t.nodes[x]
  {
    Arena(t.nodes[n := t.nodes[n].(visits := t.nodes[n].visits + 1)], t.next)
  }

  /** Node `n` gains `amount` wins. */
  function Gain<S, M>(t: Tree<S, M>, n: NodeId, amount: real): (u: Tree<S, M>)
    requires n in t.nodes
    ensures SameShape(t, u)
    ensures u.nodes[n].visits == t.nodes[n].visits && u.nodes[n].wins == t.nodes[n].wins + amount
    ensures forall x {:trigger u.nodes[x]} :: x in t.nodes && x != n ==> u.nodes[x] == t.nodes[x]
  {
    Arena(t.nodes[n := t.nodes[n].(wins := t.nodes[n].wins + amount)], t.next)
  }

  /**
    `backPropagate(node, winner)` as evidently intended: every node on the
    walk up from `n` gains a visit and the credit for its own state.
  */
  function BackPropagate<S, M>(g: Rules<S, M>, t: Tree<S, M>, n: NodeId, w: Winner): (u: Tree<S, M>)
    requires Linked(t)
    decreases n
    ensures SameShape(t, u)
  {
    if n !in t.nodes then t
    else
      var t1 := Gain(Visit(t, n), n, Credit(g, t.nodes[n].state, w));
      match t.nodes[n].parent
      case None => t1
      case Some(q) =>
        SameShapeKeepsWalks(t, t1, q);
        BackPropagate(g, t1, q, w)
  }

  /** The statistics of one node `x` after the corrected backpropagation from `n`. */
  lemma {:induction false} BackPropagateAt<S, M>(g: Rules<S, M>, t: Tree<S, M>, n: NodeId, w: Winner, x: NodeId)
    requires Linked(t) && x in t.nodes
    decreases n
    ensures var u := BackPropagate(g, t, n, w);
      && u.nodes[x].visits == t.nodes[x].visits + (if x in Ancestry(t, n) then 1 else 0)
      && u.nodes[x].wins == t.nodes[x].wins + (if x in Ancestry(t, n) then Credit(g, t.nodes[x].state, w) else 0.0)
  {
    if n in t.nodes {
      var t1 := Gain(Visit(t, n), n, Credit(g, t.nodes[n].state, w));
      match t.nodes[n].parent
      case None =>
      case Some(q) =>
        SameShapeKeepsWalks(t, t1, q);
        BackPropagateAt(g, t1, q, w, x);
        AncestryStep(t, n);
    }
  }

  /** The corrected backpropagation keeps every invariant, wins within visits included. */
  lemma BackPropagateKeepsValid<S, M>(g: Rules<S, M>, t: Tree<S, M>, n: NodeId, w: Winner)
    requires ValidTree(g, t) && WinsWithinVisits(t)
    ensures var u := BackPropagate(g, t, n, w);
      ValidTree(g, u) && WinsWithinVisits(u) && Grows(t, u)
  {
    var u := BackPropagate(g, t, n, w);
    BackPropagateKeepsStats(g, t, n, w);
    VisitKeepsCover(t, u, n);
    ShapeKeepsValid(g, t, u);
  }

  lemma BackPropagateKeepsStats<S, M>(g: Rules<S, M>, t: Tree<S, M>, n: NodeId, w: Winner)
    requires Linked(t) && WinsWithinVisits(t) && VisitsNonNegative(t)
    ensures var u := BackPropagate(g, t, n, w);
      VisitedAlong(t, u, n) && WinsWithinVisits(u) && VisitsNonNegative(u)
  {
    var u := BackPropagate(g, t, n, w);
    forall x | x in t.nodes
      ensures u.nodes[x].visits == t.nodes[x].visits + (if x in Ancestry(t, n) then 1 else 0)
      ensures 0 <= u.nodes[x].visits && u.nodes[x].wins <= u.nodes[x].visits as real
    {
      BackPropagateAt(g, t, n, w, x);
    }
  }

  /** A tree with the same shape and sound statistics satisfies every invariant. */
  lemma ShapeKeepsValid<S, M>(g: Rules<S, M>, t: Tree<S, M>, u: Tree<S, M>)
    requires Linked(t) && Consistent(g, t) && SameShape(t, u)
    requires VisitsNonNegative(u) && VisitsCoverChildren(u)
    ensures ValidTree(g, u) && Grows(t, u)
  {
    SameShapeKeepsWalks(t, u, 0);
    SameShapeKeepsConsistency(g, t, u);
    SameShapeGrows(t, u);
  }

  /**
    `backPropagate(node, winner)` as written: every node `n` on the walk
    gains a visit, but the credit for `n`'s state goes to the start node
    `node` every time.
  */
  function BackPropagateAsWritten<S, M>(g: Rules<S, M>, t: Tree<S, M>, start: NodeId, n: NodeId, w: Winner)
    : (u: Tree<S, M>)
    requires Linked(t) && start in t.nodes
    decreases n
    ensures u.nodes.Keys == t.nodes.Keys
  {
    if n !in t.nodes then t
    else
      var t1 := Gain(Visit(t, n), start, Credit(g, t.nodes[n].state, w));
      match t.nodes[n].parent
      case None => t1
      case Some(q) =>
        SameShapeKeepsWalks(t, t1, q);
        BackPropagateAsWritten(g, t1, start, q, w)
  }

  /** The credits for the states along `path`, added up. */
  function CreditSum<S, M>(g: Rules<S, M>, t: Tree<S, M>, path: seq<NodeId>, w: Winner): real
    requires forall k :: 0 <= k < |path| ==> path[k] in t.nodes
    decreases |path|
  {
    if path == [] then 0.0 else Credit(g, t.nodes[path[0]].state, w) + CreditSum(g, t, path[1..], w)
  }

  /** Credits depend on states only, which statistics updates keep. */
  lemma {:induction false} CreditSumSameShape<S, M>(g: Rules<S, M>, t: Tree<S, M>, u: Tree<S, M>, path: seq<NodeId>, w: Winner)
    requires SameShape(t, u)
    requires forall k :: 0 <= k < |path| ==> path[k] in t.nodes
    decreases |path|
    ensures CreditSum(g, u, path, w) == CreditSum(g, t, path, w)
  {
    if path != [] {
      CreditSumSameShape(g, t, u, path[1..], w);
    }
  }

  /** A draw credits half a win per node of the walk. */
  lemma {:induction false} DrawCreditSum<S, M>(g: Rules<S, M>, t: Tree<S, M>, path: seq<NodeId>)
    requires forall k :: 0 <= k < |path| ==> path[k] in t.nodes
    decreases |path|
    ensures CreditSum(g, t, path, Draw) == 0.5 * |path| as real
  {
    if path != [] {
      DrawCreditSum(g, t, path[1..]);
    }
  }

  /** As written, the walk's nodes gain their visits. */
  lemma {:induction false} AsWrittenVisitsAt<S, M>(g: Rules<S, M>, t: Tree<S, M>, start: NodeId, n: NodeId, w: Winner,
                                                   x: NodeId)
    requires Linked(t) && start in t.nodes && x in t.nodes
    decreases n
    ensures BackPropagateAsWritten(g, t, start, n, w).nodes[x].visits == t.nodes[x].visits + (if x in Ancestry(t, n) then 1 else 0)
  {
    if n in t.nodes {
      var t1 := Gain(Visit(t, n), start, Credit(g, t.nodes[n].state, w));
      match t.nodes[n].parent
      case None =>
      case Some(q) =>
        SameShapeKeepsWalks(t, t1, q);
        AsWrittenVisitsAt(g, t1, start, q, w, x);
        AncestryStep(t, n);
    }
  }

  /** As written, the start node alone gains the credits of the whole walk. */
  lemma {:induction false} AsWrittenWinsAt<S, M>(g: Rules<S, M>, t: Tree<S, M>, start: NodeId, n: NodeId, w: Winner,
                                                 x: NodeId)
    requires Linked(t) && start in t.nodes && x in t.nodes
    decreases n
    ensures BackPropagateAsWritten(g, t, start, n, w).nodes[x].wins ==
      t.nodes[x].wins + (if x == start then CreditSum(g, t, Ancestry(t, n), w) else 0.0)
  {
    if n in t.nodes {
      var c := Credit(g, t.nodes[n].state, w);
      var t1 := Gain(Visit(t, n), start, c);
      assert t1.nodes[x].wins == t.nodes[x].wins + (if x == start then c else 0.0);
      match t.nodes[n].parent
      case None =>
        assert Ancestry(t, n) == [n];
        assert CreditSum(g, t, [n], w) == c + CreditSum(g, t, [], w);
      case Some(q) =>
        SameShapeKeepsWalks(t, t1, q);
        AsWrittenWinsAt(g, t1, start, q, w, x);
        AncestryStep(t, n);
        CreditSumSameShape(g, t, t1, Ancestry(t, q), w);
        CreditSumCons(g, t, n, Ancestry(t, q), w);
    }
  }

  lemma CreditSumCons<S, M>(g: Rules<S, M>, t: Tree<S, M>, n: NodeId, path: seq<NodeId>, w: Winner)
    requires n in t.nodes && forall k :: 0 <= k < |path| ==> path[k] in t.nodes
    ensures CreditSum(g, t, [n] + path, w) == Credit(g, t.nodes[n].state, w) + CreditSum(g, t, path, w)
  {
    assert ([n] + path)[1..] == path;
  }

  /** As written, backpropagation changes statistics only: nodes, states, moves and links stay. */
  lemma {:induction false} AsWrittenKeepsShape<S, M>(g: Rules<S, M>, t: Tree<S, M>, start: NodeId, n: NodeId, w: Winner)
    requires Linked(t) && start in t.nodes
    decreases n
    ensures SameShape(t, BackPropagateAsWritten(g, t, start, n, w))
  {
    if n in t.nodes {
      var t0 := Visit(t, n);
      var t1 := Gain(t0, start, Credit(g, t.nodes[n].state, w));
      SameShapeTransitive(t, t0, t1);
      match t.nodes[n].parent
      case None =>
      case Some(q) =>
        SameShapeKeepsWalks(t, t1, q);
        AsWrittenKeepsShape(g, t1, start, q, w);
        SameShapeTransitive(t, t1, BackPropagateAsWritten(g, t1, start, q, w));
    }
  }

  /**
    The backpropagation as written, started at the playout node, keeps every
    invariant of the tree: one visit per node of the walk keeps each visit
    count at least the sum of the children's.
  */
  lemma AsWrittenKeepsValid<S, M>(g: Rules<S, M>, t: Tree<S, M>, n: NodeId, w: Winner)
    requires ValidTree(g, t) && n in t.nodes
    ensures var u := BackPropagateAsWritten(g, t, n, n, w);
      ValidTree(g, u) && Grows(t, u) && VisitedAlong(t, u, n)
  {
    var u := BackPropagateAsWritten(g, t, n, n, w);
    AsWrittenVisitsAlong(g, t, n, w);
    VisitKeepsCover(t, u, n);
    ShapeKeepsValid(g, t, u);
  }

  /** As written, the walk from the start node gains one visit per node and nothing else changes shape. */
  lemma AsWrittenVisitsAlong<S, M>(g: Rules<S, M>, t: Tree<S, M>, n: NodeId, w: Winner)
    requires Linked(t) && VisitsNonNegative(t) && n in t.nodes
    ensures var u := BackPropagateAsWritten(g, t, n, n, w);
      VisitedAlong(t, u, n) && VisitsNonNegative(u)
  {
    var u := BackPropagateAsWritten(g, t, n, n, w);
    AsWrittenKeepsShape(g, t, n, n, w);
    forall x | x in t.nodes
      ensures u.nodes[x].visits == t.nodes[x].visits + (if x in Ancestry(t, n) then 1 else 0)
      ensures 0 <= u.nodes[x].visits
    {
      AsWrittenVisitsAt(g, t, n, n, w, x);
    }
  }

  /** The three-node chain root `0`, its child `1` and grandchild `2`, all unvisited, all holding `s`. */
  function Chain<S, M>(s: S, m: M): (t: Tree<S, M>)
    ensures Linked(t)
  {
    var t := Arena(map[
      0 := Node(s, None, None, [1], 0, 0.0),
      1 := Node(s, Some(m), Some(0), [2], 0, 0.0),
      2 := Node(s, Some(m), Some(1), [], 0, 0.0)], 3);
    assert forall x, c :: x in t.nodes && c in t.nodes[x].children ==> x + 1 == c;
    t
  }

  /** The walk up from the grandchild passes all three nodes. */
  lemma ChainWalk<S, M>(s: S, m: M)
    ensures Ancestry(Chain(s, m), 2) == [2, 1, 0]
  {
    var t := Chain(s, m);
    assert Ancestry(t, 0) == [0];
    assert Ancestry(t, 1) == [1, 0];
  }

  /**
    As written, a draw reported at the grandchild of a fresh chain leaves
    the grandchild with one visit and one and a half wins, and the root
    with a visit and no win.
  */
  lemma AsWrittenOvercreditsStart<S, M>(g: Rules<S, M>, s: S, m: M)
    ensures var u := BackPropagateAsWritten(g, Chain(s, m), 2, 2, Draw);
      && u.nodes[2].visits == 1 && u.nodes[2].wins == 1.5
      && u.nodes[0].visits == 1 && u.nodes[0].wins == 0.0
      && !WinsWithinVisits(u)
  {
    AsWrittenAtGrandchild(g, s, m);
    AsWrittenAtRoot(g, s, m);
  }

  /** As written, a draw reported at `n` credits `n` with half a win per node of its walk. */
  lemma AsWrittenDrawAtStart<S, M>(g: Rules<S, M>, t: Tree<S, M>, n: NodeId)
    requires Linked(t) && n in t.nodes
    ensures var u := BackPropagateAsWritten(g, t, n, n, Draw);
      && u.nodes[n].visits == t.nodes[n].visits + 1
      && u.nodes[n].wins == t.nodes[n].wins + 0.5 * |Ancestry(t, n)| as real
  {
    AsWrittenVisitsAt(g, t, n, n, Draw, n);
    AsWrittenWinsAt(g, t, n, n, Draw, n);
    DrawCreditSum(g, t, Ancestry(t, n));
  }

  /** As written, the grandchild gains one visit and the credits of all three nodes. */
  lemma AsWrittenAtGrandchild<S, M>(g: Rules<S, M>, s: S, m: M)
    ensures BackPropagateAsWritten(g, Chain(s, m), 2, 2, Draw).nodes[2].visits == 1
    ensures BackPropagateAsWritten(g, Chain(s, m), 2, 2, Draw).nodes[2].wins == 1.5
  {
    var t := Chain(s, m);
    AsWrittenDrawAtStart(g, t, 2);
    ChainWalk(s, m);
  }

  /** As written, the root gains one visit and no credit. */
  lemma AsWrittenAtRoot<S, M>(g: Rules<S, M>, s: S, m: M)
    ensures var u := BackPropagateAsWritten(g, Chain(s, m), 2, 2, Draw);
      u.nodes[0].visits == 1 && u.nodes[0].wins == 0.0
  {
    var t := Chain(s, m);
    ChainWalk(s, m);
    AsWrittenVisitsAt(g, t, 2, 2, Draw, 0);
    AsWrittenWinsAt(g, t, 2, 2, Draw, 0);
  }

  /** Corrected, the same draw leaves the grandchild and the root with one visit and half a win each. */
  lemma IntendedCreditsEveryNode<S, M>(g: Rules<S, M>, s: S, m: M, x: NodeId)
    requires x in {0, 2}
    ensures var u := BackPropagate(g, Chain(s, m), 2, Draw);
      u.nodes[x].visits == 1 && u.nodes[x].wins == 0.5
  {
    ChainWalk(s, m);
    BackPropagateAt(g, Chain(s, m), 2, Draw, x);
  }

  /** A round up to its backpropagation: the tree after the playout, the playout node and the reported winner. */
  datatype Staged<S, M> = Staged(arena: Tree<S, M>, explore: NodeId, winner: Winner)

  /** The `train` loop body before `backPropagate`: select, expand unless the game is over, pick, simulate. */
  function Stage<S, M>(g: Rules<S, M>, t: Tree<S, M>, root: NodeId, order: (Node<S, M, real>, Node<S, M, real>) -> real,
                       round: Round): (r: Result<Staged<S, M>>)
    requires Linked(t) && root in t.nodes
    ensures r.Ok? ==> Linked(r.value.arena) && root in r.value.arena.nodes && r.value.explore in r.value.arena.nodes
  {
    var leaf := SelectLeaf(t, root, order);
    var t1 := ExpandIfRunning(g, t, leaf, 0.0);
    var explore := PickExplore(t1, leaf, round.draw);
    var p :- Simulate(g, t1, explore, round.rollout);
    SameShapeKeepsWalks(t1, p.arena, explore);
    Ok(Staged(p.arena, explore, p.winner))
  }

  /** One iteration of the `train` loop, with `backPropagate` as written. */
  function Iterate<S, M>(g: Rules<S, M>, t: Tree<S, M>, root: NodeId, order: (Node<S, M, real>, Node<S, M, real>) -> real,
                         round: Round): (r: Result<Tree<S, M>>)
    requires Linked(t) && root in t.nodes
    ensures r.Ok? ==> Linked(r.value) && root in r.value.nodes
  {
    var p :- Stage(g, t, root, order, round);
    AsWrittenKeepsShape(g, p.arena, p.explore, p.explore, p.winner);
    SameShapeKeepsWalks(p.arena, BackPropagateAsWritten(g, p.arena, p.explore, p.explore, p.winner), root);
    Ok(BackPropagateAsWritten(g, p.arena, p.explore, p.explore, p.winner))
  }

  /** The same iteration with the corrected backpropagation. */
  function IntendedIterate<S, M>(g: Rules<S, M>, t: Tree<S, M>, root: NodeId,
                                 order: (Node<S, M, real>, Node<S, M, real>) -> real, round: Round): (r: Result<Tree<S, M>>)
    requires Linked(t) && root in t.nodes
    ensures r.Ok? ==> Linked(r.value) && root in r.value.nodes
  {
    var p :- Stage(g, t, root, order, round);
    SameShapeKeepsWalks(p.arena, BackPropagate(g, p.arena, p.explore, p.winner), root);
    Ok(BackPropagate(g, p.arena, p.explore, p.winner))
  }

  /** Everything before the backpropagation keeps the invariants, and wins within visits when it held. */
  lemma StageKeepsValid<S, M>(g: Rules<S, M>, t: Tree<S, M>, root: NodeId,
                              order: (Node<S, M, real>, Node<S, M, real>) -> real, round: Round)
    requires ValidTree(g, t) && root in t.nodes
    ensures var r := Stage(g, t, root, order, round);
      r.Ok? ==> && ValidTree(g, r.value.arena) && Grows(t, r.value.arena)
                && (WinsWithinVisits(t) ==> WinsWithinVisits(r.value.arena))
  {
    var leaf := SelectLeaf(t, root, order);
    var t1 := ExpandIfRunning(g, t, leaf, 0.0);
    if !g.gameOver(t.nodes[leaf].state) {
      ExpandKeepsValid(g, t, leaf);
    }
    assert ValidTree(g, t1) && Grows(t, t1) && (WinsWithinVisits(t) ==> WinsWithinVisits(t1));
    var explore := PickExplore(t1, leaf, round.draw);
    var p := Simulate(g, t1, explore, round.rollout);
    if p.Ok? {
      SimulateKeepsValid(g, t1, explore, round.rollout);
      GrowsTransitive(t, t1, p.value.arena);
    }
  }

  /** A round as written keeps every invariant of the tree and only grows it. */
  lemma IterateKeepsValid<S, M>(g: Rules<S, M>, t: Tree<S, M>, root: NodeId,
                                order: (Node<S, M, real>, Node<S, M, real>) -> real, round: Round)
    requires ValidTree(g, t) && root in t.nodes
    ensures var r := Iterate(g, t, root, order, round);
      r.Ok? ==> ValidTree(g, r.value) && Grows(t, r.value)
  {
    var p := Stage(g, t, root, order, round);
    if p.Ok? {
      StageKeepsValid(g, t, root, order, round);
      var s := p.value;
      AsWrittenKeepsValid(g, s.arena, s.explore, s.winner);
      GrowsTransitive(t, s.arena, BackPropagateAsWritten(g, s.arena, s.explore, s.explore, s.winner));
    }
  }

  /** A corrected round keeps every invariant and wins within visits as well. */
  lemma IntendedIterateKeepsValid<S, M>(g: Rules<S, M>, t: Tree<S, M>, root: NodeId,
                                        order: (Node<S, M, real>, Node<S, M, real>) -> real, round: Round)
    requires ValidTree(g, t) && WinsWithinVisits(t) && root in t.nodes
    ensures var r := IntendedIterate(g, t, root, order, round);
      r.Ok? ==> ValidTree(g, r.value) && WinsWithinVisits(r.value) && Grows(t, r.value)
  {
    var p := Stage(g, t, root, order, round);
    if p.Ok? {
      StageKeepsValid(g, t, root, order, round);
      var s := p.value;
      BackPropagateKeepsValid(g, s.arena, s.explore, s.winner);
      GrowsTransitive(t, s.arena, BackPropagate(g, s.arena, s.explore, s.winner));
    }
  }

  lemma ExpandKeepsValid<S, M>(g: Rules<S, M>, t: Tree<S, M>, n: NodeId)
    requires ValidTree(g, t) && n in t.nodes
    ensures ValidTree(g, Expand(g, t, n, 0.0)) && Grows(t, Expand(g, t, n, 0.0))
    ensures WinsWithinVisits(t) ==> WinsWithinVisits(Expand(g, t, n, 0.0))
  {
    ExpandKeepsLinks(g, t, n, 0.0);
    ExpandKeepsConsistency(g, t, n, 0.0);
    ExpandKeepsCover(g, t, n, 0.0);
    if WinsWithinVisits(t) {
      ExpandKeepsWins(g, t, n);
    }
    ExpandGrows(g, t, n, 0.0);
  }

  /** The new children start with no wins and no visits. */
  lemma ExpandKeepsWins<S, M>(g: Rules<S, M>, t: Tree<S, M>, n: NodeId)
    requires Linked(t) && n in t.nodes && WinsWithinVisits(t)
    ensures WinsWithinVisits(Expand(g, t, n, 0.0))
  {
    var u := Expand(g, t, n, 0.0);
    forall x | x in u.nodes
      ensures u.nodes[x].wins <= u.nodes[x].visits as real
    {
      if x !in t.nodes {
        var moves := g.legalMoves(t.nodes[n].state);
        var k := x - t.next;
        assert 0 <= k < |moves|;
        var kid := NewNode(g.apply(t.nodes[n].state, moves[k]), Some(moves[k]), Some(n), 0.0);
        assert u.nodes[t.next + k] == kid;
      }
    }
  }

  lemma SimulateKeepsValid<S, M>(g: Rules<S, M>, t: Tree<S, M>, n: NodeId, rollout: Final)
    requires ValidTree(g, t) && n in t.nodes
    ensures var r := Simulate(g, t, n, rollout);
      r.Ok? ==> && ValidTree(g, r.value.arena) && Grows(t, r.value.arena)
                && (WinsWithinVisits(t) ==> WinsWithinVisits(r.value.arena))
  {
    var r := Simulate(g, t, n, rollout);
    if r.Ok? {
      SimulateKeepsStats(g, t, n, rollout);
      SameVisitsKeepCover(t, r.value.arena);
      ShapeKeepsValid(g, t, r.value.arena);
    }
  }

  /** No visit count changes, and the sentinel is below every visit count. */
  lemma SimulateKeepsStats<S, M>(g: Rules<S, M>, t: Tree<S, M>, n: NodeId, rollout: Final)
    requires Linked(t) && n in t.nodes && VisitsNonNegative(t)
    ensures var r := Simulate(g, t, n, rollout);
      r.Ok? ==> VisitsNonNegative(r.value.arena) && (WinsWithinVisits(t) ==> WinsWithinVisits(r.value.arena))
  {
    var r := Simulate(g, t, n, rollout);
    if r.Ok? {
      var u := r.value.arena;
      forall x | x in u.nodes
        ensures 0 <= u.nodes[x].visits
        ensures WinsWithinVisits(t) ==> u.nodes[x].wins <= u.nodes[x].visits as real
      {
        assert x in t.nodes;
      }
    }
  }

  /** The `while` loop of `train`, one round per element of `rounds`. */
  function Run<S, M>(g: Rules<S, M>, t: Tree<S, M>, root: NodeId, order: (Node<S, M, real>, Node<S, M, real>) -> real,
                     rounds: seq<Round>): (r: Result<Tree<S, M>>)
    requires ValidTree(g, t) && root in t.nodes
    decreases |rounds|
    ensures r.Ok? ==> ValidTree(g, r.value) && root in r.value.nodes && Grows(t, r.value)
    ensures rounds == [] ==> r == Ok(t)
  {
    if rounds == [] then Ok(t)
    else
      IterateKeepsValid(g, t, root, order, rounds[0]);
      var t1 :- Iterate(g, t, root, order, rounds[0]);
      var rest := Run(g, t1, root, order, rounds[1..]);
      if rest.Ok? then GrowsTransitive(t, t1, rest.value); rest else rest
  }

  /** A tree that only grew still answers every lookup entry correctly. */
  lemma GrowthKeepsLookup<S, M>(t: Tree<S, M>, u: Tree<S, M>, lookup: map<S, NodeId>)
    requires LookupSound(t, lookup) && Grows(t, u)
    ensures LookupSound(u, lookup)
  {
  }

  /**
    `train(board)`: choose the root, then run the rounds from it. The lookup
    is left as it was.
  */
  function Train<S(==), M>(g: Rules<S, M>, e: Engine<S, M>, board: S, order: (Node<S, M, real>, Node<S, M, real>) -> real,
                           rounds: seq<Round>): (r: Result<Engine<S, M>>)
    requires Valid(g, e)
    ensures r.Ok? ==> Valid(g, r.value)
    ensures r.Ok? ==> r.value.root.Some? && r.value.arena.nodes[r.value.root.value].state == board
    ensures r.Ok? ==> r.value.lookup == e.lookup && Grows(e.arena, r.value.arena)
  {
    var e1 := ChooseRoot(g, e, board);
    ChooseRootKeepsValid(g, e, board);
    var t :- Run(g, e1.arena, e1.root.value, order, rounds);
    GrowthKeepsLookup(e1.arena, t, e1.lookup);
    GrowsTransitive(e.arena, e1.arena, t);
    Ok(Engine(t, e1.root, e1.lookup))
  }

  // ----- Answering and reusing -----

  /** The first of `cs[i..]` whose move is `m`. */
  function FirstWithMove<S, M(==)>(t: Tree<S, M>, cs: seq<NodeId>, m: M, i: nat): (r: Option<NodeId>)
    requires i <= |cs|
    requires forall k :: 0 <= k < |cs| ==> cs[k] in t.nodes
    decreases |cs| - i
    ensures r.None? <==> forall k :: i <= k < |cs| ==> t.nodes[cs[k]].move != Some(m)
    ensures r.Some? ==> exists j :: (&& i <= j < |cs| && cs[j] == r.value && t.nodes[cs[j]].move == Some(m)
                                     && forall k :: i <= k < j ==> t.nodes[cs[k]].move != Some(m))
  {
    if i == |cs| then None
    else if t.nodes[cs[i]].move == Some(m) then Some(cs[i])
    else FirstWithMove(t, cs, m, i + 1)
  }

  /**
    The `put(child.state, child)` loop: the nodes of `cs` indexed by their
    states, a later node replacing an earlier one with an equal state.
  */
  function IndexByState<S(==), M>(t: Tree<S, M>, cs: seq<NodeId>): (r: map<S, NodeId>)
    requires forall k :: 0 <= k < |cs| ==> cs[k] in t.nodes
    decreases |cs|
    ensures forall k :: 0 <= k < |cs| ==> t.nodes[cs[k]].state in r
    ensures forall s :: s in r ==> r[s] in cs && t.nodes[r[s]].state == s
  {
    if cs == [] then map[]
    else
      var last := cs[|cs| - 1];
      var front := IndexByState(t, cs[..|cs| - 1]);
      assert forall k :: 0 <= k < |cs| - 1 ==> cs[..|cs| - 1][k] == cs[k];
      front[t.nodes[last].state := last]
  }

  /** The entry for a state is the last node of `cs` holding it. */
  lemma {:induction false} IndexKeepsLast<S, M>(t: Tree<S, M>, cs: seq<NodeId>, k: nat)
    requires forall i :: 0 <= i < |cs| ==> cs[i] in t.nodes
    requires k < |cs|
    requires forall j :: k < j < |cs| ==> t.nodes[cs[j]].state != t.nodes[cs[k]].state
    decreases |cs|
    ensures IndexByState(t, cs)[t.nodes[cs[k]].state] == cs[k]
  {
    if k < |cs| - 1 {
      var front := cs[..|cs| - 1];
      assert front[k] == cs[k];
      forall j | k < j < |front|
        ensures t.nodes[front[j]].state != t.nodes[front[k]].state
      {
        assert front[j] == cs[j];
      }
      IndexKeepsLast(t, front, k);
    }
  }

  /**
    `updateChildMoves(node, move)`: the children of the first child of
    `node` that carries `move`, indexed by state; empty when none carries it.
  */
  function UpdateChildMoves<S(==), M(==)>(t: Tree<S, M>, node: NodeId, move: M): (r: map<S, NodeId>)
    requires Linked(t) && node in t.nodes
    ensures r != map[] ==> exists c :: c in t.nodes[node].children && t.nodes[c].move == Some(move)
    ensures LookupSound(t, r)
    ensures IndexesReply(t, node, move, r)
    ensures forall s :: s in r ==>
      (&& r[s] in t.nodes && t.nodes[r[s]].parent.Some?
       && t.nodes[r[s]].parent.value in t.nodes[node].children
       && t.nodes[t.nodes[r[s]].parent.value].move == Some(move))
  {
    var cs := t.nodes[node].children;
    assert forall k :: 0 <= k < |cs| ==> cs[k] in t.nodes;
    match FirstWithMove(t, cs, move, 0)
    case None => map[]
    case Some(c) =>
      var gs := t.nodes[c].children;
      assert forall k :: 0 <= k < |gs| ==> gs[k] in t.nodes;
      var r := IndexByState(t, gs);
      assert forall s :: s in r ==> r[s] in gs;
      forall gc | gc in gs
        ensures t.nodes[gc].state in r
      {
        var k :| 0 <= k < |gs| && gs[k] == gc;
      }
      r
  }

  /**
    The lookup `updateChildMoves(node, move)` is meant to leave: when some
    child of `node` carries `move`, the first such child's children, every
    one of them under its state and nothing else; otherwise nothing.
  */
  predicate IndexesReply<S(==), M(==)>(t: Tree<S, M>, node: NodeId, move: M, lookup: map<S, NodeId>)
    requires Linked(t) && node in t.nodes
  {
    var cs := t.nodes[node].children;
    match FirstWithMove(t, cs, move, 0)
    case None => lookup == map[]
    case Some(c) =>
      && c in t.nodes
      && (forall gc :: gc in t.nodes[c].children ==> t.nodes[gc].state in lookup)
      && (forall s :: s in lookup ==> lookup[s] in t.nodes[c].children)
  }

  /**
    `nextMove(board)`: train, answer with the move of the root child that
    `order` ranks highest, and index the grandchildren reached through it.
    The root stays at `board`.
  */
  function NextMove<S(==), M(==)>(g: Rules<S, M>, e: Engine<S, M>, board: S,
                                  order: (Node<S, M, real>, Node<S, M, real>) -> real, rounds: seq<Round>)
    : (r: Result<Answer<S, M>>)
    requires Valid(g, e)
    ensures r.Ok? ==> Valid(g, r.value.engine)
    ensures r.Ok? ==> r.value.move in g.legalMoves(board)
    ensures r.Ok? ==> var a := r.value.engine;
      && a.root.Some? && a.arena.nodes[a.root.value].state == board
      && Grows(e.arena, a.arena)
      && (exists c :: c in a.arena.nodes[a.root.value].children && a.arena.nodes[c].move == Some(r.value.move))
      && IndexesReply(a.arena, a.root.value, r.value.move, a.lookup)
      && forall s :: s in a.lookup ==>
           && a.arena.nodes[a.lookup[s]].parent.Some?
           && var c := a.arena.nodes[a.lookup[s]].parent.value;
              c in a.arena.nodes[a.root.value].children && a.arena.nodes[c].move == Some(r.value.move)
  {
    var e1 :- Train(g, e, board, order, rounds);
    var root := e1.root.value;
    var best :- BestChild(e1.arena, root, order);
    assert e1.arena.nodes[best].move.Some?;
    var move := e1.arena.nodes[best].move.value;
    Ok(Answer(Engine(e1.arena, e1.root, UpdateChildMoves(e1.arena, root, move)), move))
  }

  /**
    A search that runs no round from a fresh root has no child to answer
    with, and `Collections.max` throws.
  */
  lemma NoRoundsFromFreshRootFails<S, M>(g: Rules<S, M>, e: Engine<S, M>, board: S,
                                                 order: (Node<S, M, real>, Node<S, M, real>) -> real)
    requires Valid(g, e)
    requires !(e.root.Some? && e.arena.nodes[e.root.value].state == board) && board !in e.lookup
    ensures NextMove(g, e, board, order, []) == Err(NoSuchElement)
  {
    var e1 := ChooseRoot(g, e, board);
    assert e1.arena.nodes[e1.root.value].children == [];
  }

  /**
    Tree reuse: when the opponent's reply leads to a board that the engine
    indexed after its answer, the next search starts at that node, with
    every statistic gathered so far.
  */
  lemma ReplyIsReused<S, M>(g: Rules<S, M>, e: Engine<S, M>, board: S,
                                    order: (Node<S, M, real>, Node<S, M, real>) -> real, rounds: seq<Round>, reply: S)
    requires Valid(g, e)
    requires var r := NextMove(g, e, board, order, rounds);
      r.Ok? && reply in r.value.engine.lookup && reply != board
    ensures var a := NextMove(g, e, board, order, rounds).value.engine;
      ChooseRoot(g, a, reply) == a.(root := Some(a.lookup[reply]))
  {
  }

  // ----- The training file -----

  /**
    `loadTrainingFile()`. `file` is what deserialisation produced, `None`
    when opening or reading the file failed, in which case nothing changes.
    Otherwise the file's root becomes the root and the lookup indexes its
    children. The file holds a tree that `createTrainingFile` wrote.
  */
  function LoadTrainingFile<S(==), M>(e: Engine<S, M>, file: Option<Snapshot<S, M>>): (r: Engine<S, M>)
    requires file.Some? ==> Linked(file.value.arena) && file.value.root in file.value.arena.nodes
    ensures file.None? ==> r == e
    ensures file.Some? ==> r.arena == file.value.arena && r.root == Some(file.value.root)
    ensures file.Some? ==> LookupSound(r.arena, r.lookup)
    ensures file.Some? ==> forall s :: s in r.lookup ==> r.arena.nodes[r.lookup[s]].parent == Some(file.value.root)
    ensures file.Some? ==> forall c :: c in r.arena.nodes[file.value.root].children ==> r.arena.nodes[c].state in r.lookup
  {
    match file
    case None => e
    case Some(f) =>
      var cs := f.arena.nodes[f.root].children;
      assert forall k :: 0 <= k < |cs| ==> cs[k] in f.arena.nodes;
      var lookup := IndexByState(f.arena, cs);
      assert forall s :: s in lookup ==> lookup[s] in cs;
      forall c | c in cs
        ensures f.arena.nodes[c].state in lookup
      {
        var k :| 0 <= k < |cs| && cs[k] == c;
      }
      Engine(f.arena, Some(f.root), lookup)
  }

  /**
    `createTrainingFile()`: train from the initial board `init`, then write
    the root's object graph. Failures of the write itself are caught and
    change nothing the engine keeps.
  */
  function CreateTrainingFile<S(==), M>(g: Rules<S, M>, e: Engine<S, M>, init: S,
                                        order: (Node<S, M, real>, Node<S, M, real>) -> real, rounds: seq<Round>)
    : (r: Result<Saved<S, M>>)
    requires Valid(g, e)
    ensures r.Ok? ==> Valid(g, r.value.engine)
    ensures r.Ok? ==> r.value.file.arena == r.value.engine.arena && Some(r.value.file.root) == r.value.engine.root
    ensures r.Ok? ==> r.value.file.arena.nodes[r.value.file.root].state == init
  {
    var e1 :- Train(g, e, init, order, rounds);
    Ok(Saved(e1, Snapshot(e1.arena, e1.root.value)))
  }

  /**
    Loading the file just written restores the same tree and root, and the
    result satisfies every invariant.
  */
  lemma LoadRestoresCreated<S, M>(g: Rules<S, M>, e: Engine<S, M>, init: S,
                                      order: (Node<S, M, real>, Node<S, M, real>) -> real, rounds: seq<Round>,
                                      other: Engine<S, M>)
    requires Valid(g, e)
    requires CreateTrainingFile(g, e, init, order, rounds).Ok?
    ensures var saved := CreateTrainingFile(g, e, init, order, rounds).value;
      var loaded := LoadTrainingFile(other, Some(saved.file));
      && loaded.arena == saved.engine.arena && loaded.root == saved.engine.root
      && loaded.arena.nodes[loaded.root.value].state == init
      && Valid(g, loaded)
  {
  }
}

=== FILE: searchtree.dfy ===
/**
  The search-tree scaffolding shared by both Monte Carlo players: nodes live
  in an arena indexed by `NodeId`, children are id lists, and the parent
  back-reference is an optional id.

  Ids are handed out in increasing order, so a parent's id is always smaller
  than its children's; walking parent links therefore terminates, and that
  walk (`Ancestry`) is the path every backpropagation loop follows until it
  reaches a node whose parent is null.
*/
module SearchTree {
  import opened Faults
  import opened Game

  type NodeId = nat

  /**
    One search node: the state it represents, the move that produced it
    (null at a root), the parent link, the ordered children, the visit count
    and the accumulated win score of type `W`.
  */
  datatype Node<S, M, W> = Node(state: S, move: Option<M>, parent: Option<NodeId>, children: seq<NodeId>,
                                visits: int, wins: W)

  /** All nodes allocated so far, and the next id to hand out. */
  datatype Arena<S, M, W> = Arena(nodes: map<NodeId, Node<S, M, W>>, next: NodeId)

  /** A freshly constructed node: no children and zero statistics. */
  function NewNode<S, M, W>(state: S, move: Option<M>, parent: Option<NodeId>, zero: W): (n: Node<S, M, W>)
    ensures n.visits == 0 && n.wins == zero && n.children == []
    ensures n.state == state && n.move == move && n.parent == parent
  {
    Node(state, move, parent, [], 0, zero)
  }

  predicate Distinct(xs: seq<NodeId>) {
    forall i, j :: 0 <= i < j < |xs| ==> xs[i] != xs[j]
  }

  /**
    The links form a forest: every id is below `next`, a parent exists, has a
    smaller id and lists the node among its children, every child list is
    duplicate-free, and every listed child points back to its parent.
  */
  predicate Linked<S, M, W>(t: Arena<S, M, W>) {
    && (forall x :: x in t.nodes ==> x < t.next)
    && (forall x {:trigger t.nodes[x].parent} :: x in t.nodes && t.nodes[x].parent.Some? ==>
          var q := t.nodes[x].parent.value;
          q in t.nodes && q < x && x in t.nodes[q].children)
    && (forall x :: x in t.nodes ==> Distinct(t.nodes[x].children))
    && (forall x, c {:trigger c in t.nodes[x].children} :: x in t.nodes && c in t.nodes[x].children ==>
          c in t.nodes && t.nodes[c].parent == Some(x))
    && (forall x, k {:trigger t.nodes[x].children[k]} :: x in t.nodes && 0 <= k < |t.nodes[x].children| ==>
          t.nodes[x].children[k] in t.nodes)
  }

  /**
    Every child's state is its parent's state with the child's move applied,
    and that move is legal there.
  */
  ghost predicate Consistent<S, M, W>(g: Rules<S, M>, t: Arena<S, M, W>) {
    forall x, c {:trigger c in t.nodes[x].children} :: x in t.nodes && c in t.nodes[x].children ==>
      && c in t.nodes
      && t.nodes[c].move.Some?
      && t.nodes[c].move.value in g.legalMoves(t.nodes[x].state)
      && t.nodes[c].state == g.apply(t.nodes[x].state, t.nodes[c].move.value)
  }

  /** The nodes a `while (n != null) { ...; n = n.parent; }` loop visits, starting at `n`. */
  function Ancestry<S, M, W>(t: Arena<S, M, W>, n: NodeId): (path: seq<NodeId>)
    requires Linked(t)
    decreases n
    ensures n in t.nodes ==> |path| > 0 && path[0] == n
    ensures n !in t.nodes ==> path == []
    ensures forall k :: 0 <= k < |path| ==> path[k] in t.nodes
  {
    if n !in t.nodes then []
    else
      match t.nodes[n].parent
      case None => [n]
      case Some(q) => [n] + Ancestry(t, q)
  }

  /** A walk climbs parent links through ever smaller ids and ends at a node without a parent. */
  lemma {:induction false} AncestryLinks<S, M, W>(t: Arena<S, M, W>, n: NodeId)
    requires Linked(t)
    decreases n
    ensures var path := Ancestry(t, n);
      && (forall k :: 0 <= k < |path| ==> path[k] <= n)
      && (forall i, j :: 0 <= i && j == i + 1 && j < |path| ==> t.nodes[path[i]].parent == Some(path[j]))
      && (|path| > 0 ==> t.nodes[path[|path| - 1]].parent == None)
      && (forall i, j :: 0 <= i < j < |path| ==> path[j] < path[i])
  {
    if n in t.nodes && t.nodes[n].parent.Some? {
      AncestryLinks(t, t.nodes[n].parent.value);
    }
  }

  /** A walk from a node with a parent is the node followed by the parent's walk, which avoids the node. */
  lemma AncestryStep<S, M, W>(t: Arena<S, M, W>, x: NodeId)
    requires Linked(t) && x in t.nodes && t.nodes[x].parent.Some?
    ensures Ancestry(t, x) == [x] + Ancestry(t, t.nodes[x].parent.value)
    ensures x !in Ancestry(t, t.nodes[x].parent.value)
  {
    AncestryLinks(t, t.nodes[x].parent.value);
  }

  /** The parent of a node on a walk is on the walk too. */
  lemma ParentOnAncestry<S, M, W>(t: Arena<S, M, W>, n: NodeId, c: NodeId)
    requires Linked(t) && c in Ancestry(t, n) && t.nodes[c].parent.Some?
    ensures t.nodes[c].parent.value in Ancestry(t, n)
  {
    var path := Ancestry(t, n);
    AncestryLinks(t, n);
    var k :| 0 <= k < |path| && path[k] == c;
    assert k < |path| - 1;
  }

  /** A walk passes through at most one child of any node. */
  lemma OneChildOnAncestry<S, M, W>(t: Arena<S, M, W>, n: NodeId, x: NodeId, c1: NodeId, c2: NodeId)
    requires Linked(t) && x in t.nodes
    requires c1 in t.nodes[x].children && c2 in t.nodes[x].children
    requires c1 in Ancestry(t, n) && c2 in Ancestry(t, n)
    ensures c1 == c2
  {
    var path := Ancestry(t, n);
    AncestryLinks(t, n);
    var i :| 0 <= i < |path| && path[i] == c1;
    var j :| 0 <= j < |path| && path[j] == c2;
    assert i < |path| - 1 && j < |path| - 1;
    assert path[i + 1] == x == path[j + 1];
  }

  /** Same nodes, states, moves and links; only the statistics may differ. */
  ghost predicate SameShape<S, M, W>(t: Arena<S, M, W>, u: Arena<S, M, W>) {
    && t.next == u.next
    && t.nodes.Keys == u.nodes.Keys
    && forall x {:trigger u.nodes[x]} :: x in t.nodes ==>
         && u.nodes[x].state == t.nodes[x].state
         && u.nodes[x].move == t.nodes[x].move
         && u.nodes[x].parent == t.nodes[x].parent
         && u.nodes[x].children == t.nodes[x].children
  }

  /** Changing statistics keeps the links and every walk. */
  lemma {:induction false} SameShapeKeepsWalks<S, M, W>(t: Arena<S, M, W>, u: Arena<S, M, W>, n: NodeId)
    requires Linked(t) && SameShape(t, u)
    ensures Linked(u)
    ensures Ancestry(u, n) == Ancestry(t, n)
    decreases n
  {
    if n in t.nodes && t.nodes[n].parent.Some? {
      SameShapeKeepsWalks(t, u, t.nodes[n].parent.value);
    }
  }

  lemma SameShapeKeepsConsistency<S, M, W>(g: Rules<S, M>, t: Arena<S, M, W>, u: Arena<S, M, W>)
    requires Consistent(g, t) && SameShape(t, u)
    ensures Consistent(g, u)
  {
  }

  lemma SameShapeTransitive<S, M, W>(t: Arena<S, M, W>, u: Arena<S, M, W>, v: Arena<S, M, W>)
    requires SameShape(t, u) && SameShape(u, v)
    ensures SameShape(t, v)
  {
  }

  /** The random choices of one search round: the index drawn among the leaf's children and the playout's outcome. */
  datatype Round = Round(draw: nat, rollout: Final)

  /** Old nodes keep their states and moves, and may only gain children or statistics. */
  ghost predicate Grows<S, M, W>(t: Arena<S, M, W>, u: Arena<S, M, W>) {
    && t.next <= u.next
    && t.nodes.Keys <= u.nodes.Keys
    && forall x {:trigger u.nodes[x]} :: x in t.nodes ==> u.nodes[x].state == t.nodes[x].state && u.nodes[x].move == t.nodes[x].move
  }

  /** Updating statistics is a way of growing. */
  lemma SameShapeGrows<S, M, W>(t: Arena<S, M, W>, u: Arena<S, M, W>)
    requires SameShape(t, u)
    ensures Grows(t, u)
  {
  }

  /** Expansion keeps the states and moves of existing nodes. */
  lemma ExpandGrows<S, M, W>(g: Rules<S, M>, t: Arena<S, M, W>, n: NodeId, zero: W)
    requires Linked(t) && n in t.nodes
    ensures Grows(t, Expand(g, t, n, zero))
  {
  }

  lemma GrowsTransitive<S, M, W>(t: Arena<S, M, W>, u: Arena<S, M, W>, v: Arena<S, M, W>)
    requires Grows(t, u) && Grows(u, v)
    ensures Grows(t, v)
  {
  }

  /** The sum of the visit counts of the listed nodes. */
  function ChildVisits<S, M, W>(t: Arena<S, M, W>, cs: seq<NodeId>): int
    decreases |cs|
  {
    if cs == [] then 0
    else (if cs[0] in t.nodes then t.nodes[cs[0]].visits else 0) + ChildVisits(t, cs[1..])
  }

  /** Every node has been visited at least as often as all its children together. */
  predicate VisitsCoverChildren<S, M, W>(t: Arena<S, M, W>) {
    forall x :: x in t.nodes ==> t.nodes[x].visits >= ChildVisits(t, t.nodes[x].children)
  }

  predicate VisitsNonNegative<S, M, W>(t: Arena<S, M, W>) {
    forall x :: x in t.nodes ==> t.nodes[x].visits >= 0
  }

  /** `u` is `t` with one more visit on every node of the walk from `n` and nowhere else. */
  ghost predicate VisitedAlong<S, M, W>(t: Arena<S, M, W>, u: Arena<S, M, W>, n: NodeId)
    requires Linked(t)
  {
    && SameShape(t, u)
    && forall x {:trigger u.nodes[x].visits} :: x in t.nodes ==>
         u.nodes[x].visits == t.nodes[x].visits + (if x in Ancestry(t, n) then 1 else 0)
  }

  /** How many of the listed nodes lie on the walk. */
  function CountOn(cs: seq<NodeId>, path: seq<NodeId>): nat
    decreases |cs|
  {
    if cs == [] then 0 else (if cs[0] in path then 1 else 0) + CountOn(cs[1..], path)
  }

  lemma {:induction false} ChildVisitsAlong<S, M, W>(t: Arena<S, M, W>, u: Arena<S, M, W>, n: NodeId, cs: seq<NodeId>)
    requires Linked(t) && VisitedAlong(t, u, n)
    ensures ChildVisits(u, cs) == ChildVisits(t, cs) + CountOn(cs, Ancestry(t, n))
    decreases |cs|
  {
    if cs != [] {
      ChildVisitsAlong(t, u, n, cs[1..]);
    }
  }

  lemma {:induction false} CountOnAtMostOne(cs: seq<NodeId>, path: seq<NodeId>)
    requires Distinct(cs)
    requires forall i, j :: 0 <= i < |cs| && 0 <= j < |cs| && cs[i] in path && cs[j] in path ==> cs[i] == cs[j]
    ensures CountOn(cs, path) <= 1
    decreases |cs|
  {
    if cs != [] {
      CountOnAtMostOne(cs[1..], path);
      if cs[0] in path {
        CountOnNone(cs[1..], path);
      }
    }
  }

  lemma {:induction false} CountOnNone(cs: seq<NodeId>, path: seq<NodeId>)
    requires forall i :: 0 <= i < |cs| ==> cs[i] !in path
    ensures CountOn(cs, path) == 0
    decreases |cs|
  {
    if cs != [] {
      CountOnNone(cs[1..], path);
    }
  }

  /**
    One more visit along a walk keeps every node's visit count at least the
    sum of its children's: a node on the walk gains one and has exactly one
    child on the walk at most; a node off the walk has none there.
  */
  lemma VisitKeepsCover<S, M, W>(t: Arena<S, M, W>, u: Arena<S, M, W>, n: NodeId)
    requires Linked(t) && VisitedAlong(t, u, n) && VisitsCoverChildren(t)
    ensures VisitsCoverChildren(u)
  {
    forall x | x in u.nodes
      ensures u.nodes[x].visits >= ChildVisits(u, u.nodes[x].children)
    {
      VisitKeepsCoverAt(t, u, n, x);
    }
  }

  lemma VisitKeepsCoverAt<S, M, W>(t: Arena<S, M, W>, u: Arena<S, M, W>, n: NodeId, x: NodeId)
    requires Linked(t) && VisitedAlong(t, u, n) && x in t.nodes
    requires t.nodes[x].visits >= ChildVisits(t, t.nodes[x].children)
    ensures u.nodes[x].visits >= ChildVisits(u, u.nodes[x].children)
  {
    var path := Ancestry(t, n);
    var cs := t.nodes[x].children;
    ChildVisitsAlong(t, u, n, cs);
    if x in path {
      AtMostOneChildOnWalk(t, n, x);
    } else {
      NoChildOnWalk(t, n, x);
    }
  }

  /** A node's children contribute at most one node to any walk. */
  lemma AtMostOneChildOnWalk<S, M, W>(t: Arena<S, M, W>, n: NodeId, x: NodeId)
    requires Linked(t) && x in t.nodes
    ensures CountOn(t.nodes[x].children, Ancestry(t, n)) <= 1
  {
    var path := Ancestry(t, n);
    var cs := t.nodes[x].children;
    forall i, j | 0 <= i < |cs| && 0 <= j < |cs| && cs[i] in path && cs[j] in path
      ensures cs[i] == cs[j]
    {
      OneChildOnAncestry(t, n, x, cs[i], cs[j]);
    }
    CountOnAtMostOne(cs, path);
  }

  /** A node off the walk has none of its children on it. */
  lemma NoChildOnWalk<S, M, W>(t: Arena<S, M, W>, n: NodeId, x: NodeId)
    requires Linked(t) && x in t.nodes && x !in Ancestry(t, n)
    ensures CountOn(t.nodes[x].children, Ancestry(t, n)) == 0
  {
    var path := Ancestry(t, n);
    var cs := t.nodes[x].children;
    forall i | 0 <= i < |cs|
      ensures cs[i] !in path
    {
      if cs[i] in path {
        assert cs[i] in cs;
        ParentOnAncestry(t, n, cs[i]);
      }
    }
    CountOnNone(cs, path);
  }

  /** A statistics-only change that leaves every visit count alone keeps the cover. */
  lemma SameVisitsKeepCover<S, M, W>(t: Arena<S, M, W>, u: Arena<S, M, W>)
    requires SameShape(t, u) && VisitsCoverChildren(t)
    requires forall x :: x in t.nodes ==> u.nodes[x].visits == t.nodes[x].visits
    ensures VisitsCoverChildren(u)
  {
    forall x | x in u.nodes
      ensures u.nodes[x].visits >= ChildVisits(u, u.nodes[x].children)
    {
      ChildVisitsFrame(t, u, t.nodes[x].children);
    }
  }

  lemma {:induction false} ChildVisitsFrame<S, M, W>(t: Arena<S, M, W>, u: Arena<S, M, W>, cs: seq<NodeId>)
    requires forall k :: 0 <= k < |cs| ==> (cs[k] in t.nodes <==> cs[k] in u.nodes)
    requires forall k :: 0 <= k < |cs| && cs[k] in t.nodes ==> u.nodes[cs[k]].visits == t.nodes[cs[k]].visits
    ensures ChildVisits(u, cs) == ChildVisits(t, cs)
    decreases |cs|
  {
    if cs != [] {
      ChildVisitsFrame(t, u, cs[1..]);
    }
  }

  lemma {:induction false} ChildVisitsAppend<S, M, W>(t: Arena<S, M, W>, cs: seq<NodeId>, ds: seq<NodeId>)
    ensures ChildVisits(t, cs + ds) == ChildVisits(t, cs) + ChildVisits(t, ds)
    decreases |cs|
  {
    if cs == [] {
      assert cs + ds == ds;
    } else {
      assert (cs + ds)[1..] == cs[1..] + ds;
      ChildVisitsAppend(t, cs[1..], ds);
    }
  }

  /** Ids `from`, `from + 1`, ..., `from + count - 1`. */
  function Fresh(from: NodeId, count: nat): (ids: seq<NodeId>)
    ensures |ids| == count
    ensures forall k :: 0 <= k < count ==> ids[k] == from + k
  {
    seq(count, k requires 0 <= k < count => from + k)
  }

  /**
    Full-width expansion of node `n`: one new child per legal move of its
    state, in enumeration order, each holding its move, the parent link and
    the move applied to a copy of the parent's state. Nothing else changes;
    in particular `n` keeps its own state.
  */
  function Expand<S, M, W>(g: Rules<S, M>, t: Arena<S, M, W>, n: NodeId, zero: W): (u: Arena<S, M, W>)
    requires Linked(t) && n in t.nodes
    ensures var moves := g.legalMoves(t.nodes[n].state);
      && u.next == t.next + |moves|
      && (forall x :: x in u.nodes <==> x in t.nodes || t.next <= x < u.next)
      && u.nodes[n] == t.nodes[n].(children := t.nodes[n].children + Fresh(t.next, |moves|))
      && (forall k :: 0 <= k < |moves| ==>
            u.nodes[t.next + k] == NewNode(g.apply(t.nodes[n].state, moves[k]), Some(moves[k]), Some(n), zero))
    ensures forall x {:trigger u.nodes[x]} :: x in t.nodes && x != n ==> u.nodes[x] == t.nodes[x]
  {
    var node := t.nodes[n];
    var moves := g.legalMoves(node.state);
    var kids := Offspring(g, node.state, moves, n, t.next, zero);
    var u := Arena(t.nodes[n := node.(children := node.children + Fresh(t.next, |moves|))] + kids, t.next + |moves|);
    forall x | x in t.nodes && x != n
      ensures u.nodes[x] == t.nodes[x]
    {
      assert x !in kids;
    }
    u
  }

  /** A node that keeps its parent link, and whose ancestors keep theirs, keeps its walk. */
  lemma {:induction false} KeptLinksKeepWalk<S, M, W>(t: Arena<S, M, W>, u: Arena<S, M, W>, x: NodeId)
    requires Linked(t) && Linked(u)
    requires t.nodes.Keys <= u.nodes.Keys
    requires forall y {:trigger u.nodes[y].parent} :: y in t.nodes ==> u.nodes[y].parent == t.nodes[y].parent
    decreases x
    ensures x in t.nodes ==> Ancestry(u, x) == Ancestry(t, x)
  {
    if x in t.nodes {
      assert u.nodes[x].parent == t.nodes[x].parent;
      match t.nodes[x].parent
      case None =>
      case Some(q) =>
        KeptLinksKeepWalk(t, u, q);
    }
  }

  /** Expansion keeps the walk of every node that was already there. */
  lemma ExpandKeepsWalk<S, M, W>(g: Rules<S, M>, t: Arena<S, M, W>, n: NodeId, zero: W, x: NodeId)
    requires Linked(t) && n in t.nodes && x in t.nodes
    ensures Linked(Expand(g, t, n, zero))
    ensures Ancestry(Expand(g, t, n, zero), x) == Ancestry(t, x)
  {
    var u := Expand(g, t, n, zero);
    ExpandKeepsLinks(g, t, n, zero);
    forall y | y in t.nodes
      ensures u.nodes[y].parent == t.nodes[y].parent
    {
    }
    KeptLinksKeepWalk(t, u, x);
  }

  /** The expansion step of a search round, skipped once the game at the leaf is over. */
  function ExpandIfRunning<S, M, W>(g: Rules<S, M>, t: Arena<S, M, W>, leaf: NodeId, zero: W): (u: Arena<S, M, W>)
    requires Linked(t) && leaf in t.nodes
    ensures Linked(u) && t.nodes.Keys <= u.nodes.Keys
    ensures g.gameOver(t.nodes[leaf].state) ==> u == t
    ensures !g.gameOver(t.nodes[leaf].state) ==>
      u.nodes[leaf].children == t.nodes[leaf].children + Fresh(t.next, |g.legalMoves(t.nodes[leaf].state)|)
  {
    if !g.gameOver(t.nodes[leaf].state) then
      ExpandKeepsLinks(g, t, leaf, zero);
      Expand(g, t, leaf, zero)
    else t
  }

  /** Expanding a leaf (or not) changes neither the walk nor the statistics of an existing node. */
  lemma ExpandIfRunningKeepsOld<S, M, W>(g: Rules<S, M>, t: Arena<S, M, W>, leaf: NodeId, zero: W, y: NodeId)
    requires Linked(t) && leaf in t.nodes && y in t.nodes
    ensures var u := ExpandIfRunning(g, t, leaf, zero);
      && Ancestry(u, y) == Ancestry(t, y)
      && u.nodes[y].visits == t.nodes[y].visits && u.nodes[y].wins == t.nodes[y].wins
  {
    if !g.gameOver(t.nodes[leaf].state) {
      ExpandKeepsWalk(g, t, leaf, zero, y);
    }
  }

  /** Expansion keeps the forest well formed. */
  lemma ExpandKeepsLinks<S, M, W>(g: Rules<S, M>, t: Arena<S, M, W>, n: NodeId, zero: W)
    requires Linked(t) && n in t.nodes
    ensures Linked(Expand(g, t, n, zero))
  {
    var node := t.nodes[n];
    var moves := g.legalMoves(node.state);
    AdoptKeepsLinks(t, n, |moves|, Offspring(g, node.state, moves, n, t.next, zero));
  }

  /** The new children of an expansion, keyed by the ids `from`, `from + 1`, ... */
  function Offspring<S, M, W>(g: Rules<S, M>, state: S, moves: seq<M>, n: NodeId, from: NodeId, zero: W)
    : (kids: map<NodeId, Node<S, M, W>>)
    decreases |moves|
    ensures forall id :: id in kids <==> from <= id < from + |moves|
    ensures forall id :: id in kids ==> kids[id].parent == Some(n) && kids[id].children == [] && kids[id].visits == 0
    ensures forall k :: 0 <= k < |moves| ==> kids[from + k] == NewNode(g.apply(state, moves[k]), Some(moves[k]), Some(n), zero)
  {
    if moves == [] then map[]
    else
      var last := |moves| - 1;
      var kids := Offspring(g, state, moves[..last], n, from, zero);
      assert forall k :: 0 <= k < last ==> moves[..last][k] == moves[k];
      kids[from + last := NewNode(g.apply(state, moves[last]), Some(moves[last]), Some(n), zero)]
  }

  /**
    Appending `count` fresh childless nodes, all pointing at `n`, to the end
    of `n`'s child list keeps the forest well formed.
  */
  lemma AdoptKeepsLinks<S, M, W>(t: Arena<S, M, W>, n: NodeId, count: nat, kids: map<NodeId, Node<S, M, W>>)
    requires Linked(t) && n in t.nodes
    requires forall id :: id in kids <==> t.next <= id < t.next + count
    requires forall id :: id in kids ==> kids[id].parent == Some(n) && kids[id].children == []
    ensures var node := t.nodes[n];
      Linked(Arena(t.nodes[n := node.(children := node.children + Fresh(t.next, count))] + kids, t.next + count))
  {
    var node := t.nodes[n];
    var newIds := Fresh(t.next, count);
    var cs := node.children + newIds;
    var u := Arena(t.nodes[n := node.(children := cs)] + kids, t.next + count);
    forall x | x in u.nodes && u.nodes[x].parent.Some?
      ensures var q := u.nodes[x].parent.value; q in u.nodes && q < x && x in u.nodes[q].children
    {
      if x in kids {
        assert newIds[x - t.next] == x;
      }
    }
    forall x | x in u.nodes
      ensures Distinct(u.nodes[x].children)
    {
      if x == n {
        forall i, j | 0 <= i < j < |cs|
          ensures cs[i] != cs[j]
        {
          if j < |node.children| {
          } else if i < |node.children| {
            assert node.children[i] in t.nodes;
          }
        }
      }
    }
    forall x, c | x in u.nodes && c in u.nodes[x].children
      ensures c in u.nodes && u.nodes[c].parent == Some(x)
    {
      if x == n && c !in node.children {
        assert c in newIds;
        var k :| 0 <= k < count && newIds[k] == c;
      }
    }
    forall x, k | x in u.nodes && 0 <= k < |u.nodes[x].children|
      ensures u.nodes[x].children[k] in u.nodes
    {
      assert u.nodes[x].children[k] in u.nodes[x].children;
    }
  }

  /** Expansion keeps every child consistent with its parent's state. */
  lemma ExpandKeepsConsistency<S, M, W>(g: Rules<S, M>, t: Arena<S, M, W>, n: NodeId, zero: W)
    requires Linked(t) && n in t.nodes && Consistent(g, t)
    ensures Consistent(g, Expand(g, t, n, zero))
  {
    var u := Expand(g, t, n, zero);
    var moves := g.legalMoves(t.nodes[n].state);
    forall x, c | x in u.nodes && c in u.nodes[x].children
      ensures c in u.nodes && u.nodes[c].move.Some?
      ensures u.nodes[c].move.value in g.legalMoves(u.nodes[x].state)
      ensures u.nodes[c].state == g.apply(u.nodes[x].state, u.nodes[c].move.value)
    {
      ExpandKeepsConsistencyAt(g, t, n, zero, x, c);
    }
  }

  lemma ExpandKeepsConsistencyAt<S, M, W>(g: Rules<S, M>, t: Arena<S, M, W>, n: NodeId, zero: W, x: NodeId, c: NodeId)
    requires Linked(t) && n in t.nodes && Consistent(g, t)
    requires var u := Expand(g, t, n, zero); x in u.nodes && c in u.nodes[x].children
    ensures var u := Expand(g, t, n, zero);
      && c in u.nodes && u.nodes[c].move.Some?
      && u.nodes[c].move.value in g.legalMoves(u.nodes[x].state)
      && u.nodes[c].state == g.apply(u.nodes[x].state, u.nodes[c].move.value)
  {
    if x == n && c !in t.nodes[n].children {
      ExpandFreshChild(g, t, n, zero, c);
    }
  }

  /** A child that expansion appended is the node for the matching legal move. */
  lemma ExpandFreshChild<S, M, W>(g: Rules<S, M>, t: Arena<S, M, W>, n: NodeId, zero: W, c: NodeId)
    requires Linked(t) && n in t.nodes
    requires c in Expand(g, t, n, zero).nodes[n].children && c !in t.nodes[n].children
    ensures var moves := g.legalMoves(t.nodes[n].state);
      && t.next <= c < t.next + |moves|
      && Expand(g, t, n, zero).nodes[c] ==
           NewNode(g.apply(t.nodes[n].state, moves[c - t.next]), Some(moves[c - t.next]), Some(n), zero)
  {
    var moves := g.legalMoves(t.nodes[n].state);
    var ids := Fresh(t.next, |moves|);
    assert c in ids;
    var k :| 0 <= k < |moves| && ids[k] == c;
  }

  /** Expansion adds zero-visit nodes only, so the visit cover survives. */
  lemma ExpandKeepsCover<S, M, W>(g: Rules<S, M>, t: Arena<S, M, W>, n: NodeId, zero: W)
    requires Linked(t) && n in t.nodes && VisitsCoverChildren(t) && VisitsNonNegative(t)
    ensures VisitsCoverChildren(Expand(g, t, n, zero)) && VisitsNonNegative(Expand(g, t, n, zero))
  {
    var u := Expand(g, t, n, zero);
    var moves := g.legalMoves(t.nodes[n].state);
    var newIds := Fresh(t.next, |moves|);
    forall x | x in u.nodes
      ensures u.nodes[x].visits >= ChildVisits(u, u.nodes[x].children)
    {
      if x in t.nodes {
        var cs := t.nodes[x].children;
        ChildVisitsFrame(t, u, cs);
        if x == n {
          ChildVisitsAppend(u, cs, newIds);
          ZeroVisits(u, newIds);
        }
      }
    }
  }

  lemma {:induction false} ZeroVisits<S, M, W>(t: Arena<S, M, W>, cs: seq<NodeId>)
    requires forall k :: 0 <= k < |cs| && cs[k] in t.nodes ==> t.nodes[cs[k]].visits == 0
    ensures ChildVisits(t, cs) == 0
    decreases |cs|
  {
    if cs != [] {
      ZeroVisits(t, cs[1..]);
    }
  }

  /**
    The index `Collections.max` settles on: it keeps the first candidate and
    replaces it only by a strictly greater one, so ties go to the earliest.
  */
  function FirstMax(keys: seq<real>): (k: nat)
    requires |keys| > 0
    ensures k < |keys|
    ensures forall j :: 0 <= j < |keys| ==> keys[j] <= keys[k]
    ensures forall j :: 0 <= j < k ==> keys[j] < keys[k]
  {
    MaxFrom(keys, 1, 0)
  }

  /** The scan of `Collections.max` from position `i` with the current candidate `cand`. */
  function MaxFrom(keys: seq<real>, i: nat, cand: nat): (k: nat)
    requires cand < i <= |keys|
    requires forall j :: 0 <= j < i ==> keys[j] <= keys[cand]
    requires forall j :: 0 <= j < cand ==> keys[j] < keys[cand]
    decreases |keys| - i
    ensures cand <= k < |keys|
    ensures forall j :: 0 <= j < |keys| ==> keys[j] <= keys[k]
    ensures forall j :: 0 <= j < k ==> keys[j] < keys[k]
  {
    if i == |keys| then cand
    else if keys[i] > keys[cand] then MaxFrom(keys, i + 1, i)
    else MaxFrom(keys, i + 1, cand)
  }

  /** The comparator key of each child of `n`; it may look at the parent node too. */
  function ChildKeys<S, M, W>(t: Arena<S, M, W>, n: NodeId, key: (Node<S, M, W>, Node<S, M, W>) -> real)
    : (ks: seq<real>)
    requires Linked(t) && n in t.nodes
    ensures |ks| == |t.nodes[n].children|
    ensures forall k :: 0 <= k < |ks| ==> ks[k] == key(t.nodes[n], t.nodes[t.nodes[n].children[k]])
  {
    var cs := t.nodes[n].children;
    seq(|cs|, k requires 0 <= k < |cs| => assert cs[k] in cs; key(t.nodes[n], t.nodes[cs[k]]))
  }

  /**
    `Collections.max(n.children, comparing(key))`: a child with the largest
    key, the earliest among equals; `NoSuchElementException` without children.
  */
  function BestChild<S, M, W>(t: Arena<S, M, W>, n: NodeId, key: (Node<S, M, W>, Node<S, M, W>) -> real)
    : (r: Result<NodeId>)
    requires Linked(t) && n in t.nodes
    ensures t.nodes[n].children == [] <==> r == Err(NoSuchElement)
    ensures r.Ok? ==> r.value in t.nodes[n].children
    ensures r.Ok? ==> forall c :: c in t.nodes[n].children ==>
      key(t.nodes[n], t.nodes[c]) <= key(t.nodes[n], t.nodes[r.value])
    ensures r.Ok? ==> forall j :: (0 <= j < |t.nodes[n].children| &&
      key(t.nodes[n], t.nodes[t.nodes[n].children[j]]) >= key(t.nodes[n], t.nodes[r.value])) ==>
      r.value in t.nodes[n].children[..j + 1]
  {
    var cs := t.nodes[n].children;
    if cs == [] then Err(NoSuchElement)
    else
      var ks := ChildKeys(t, n, key);
      var k := FirstMax(ks);
      assert forall c :: c in cs ==> exists j :: 0 <= j < |cs| && cs[j] == c;
      assert forall j :: 0 <= j < |cs| && ks[j] >= ks[k] ==> k <= j && cs[k] in cs[..j + 1];
      Ok(cs[k])
  }

  /**
    Descend from `n`, always to the best child by `key`, until a node without
    children: the result is `n` or a descendant of it.
  */
  function SelectLeaf<S, M, W>(t: Arena<S, M, W>, n: NodeId, key: (Node<S, M, W>, Node<S, M, W>) -> real)
    : (leaf: NodeId)
    requires Linked(t) && n in t.nodes
    decreases t.next - n
    ensures leaf in t.nodes && t.nodes[leaf].children == []
    ensures n in Ancestry(t, leaf)
  {
    match BestChild(t, n, key)
    case Err(_) => n
    case Ok(c) =>
      var leaf := SelectLeaf(t, c, key);
      ParentOnAncestry(t, leaf, c);
      leaf
  }
}

=== FILE: uctplayer.dfy ===
/**
  The v3 Monte Carlo player (`v3/c2/StudentPlayer`): a fresh tree per move,
  rounds of UCT selection, full-width expansion, a random playout and
  backpropagation that credits the colour to move at the root.

  The wall clock decides how many rounds run; here the rounds are a list,
  and each round carries the two random choices it makes: the child index
  drawn for the playout and the playout's outcome.
*/
module UctPlayer {
  import opened Faults
  import opened JavaInt
  import opened Game
  import opened SearchTree
  import opened MyTools

  /** A finished playout: the tree after the sentinel write, and the winner. */
  datatype Playout<S, M> = Playout(arena: Arena<S, M, int>, winner: Final)

  /** The move `chooseMoveMCTS` picks, the root child that carries it, and the final tree. */
  datatype Choice<S, M> = Choice(arena: Arena<S, M, int>, child: NodeId, move: M)

  /** Every node has won at most as often as it was visited. */
  predicate WinsWithinVisits<S, M>(t: Arena<S, M, int>) {
    forall x :: x in t.nodes ==> t.nodes[x].wins <= t.nodes[x].visits
  }

  /** The invariants a v3 search tree keeps from round to round. */
  ghost predicate Valid<S, M>(g: Rules<S, M>, t: Arena<S, M, int>, root: NodeId) {
    && Linked(t) && root in t.nodes
    && Consistent(g, t)
    && VisitsNonNegative(t) && VisitsCoverChildren(t) && WinsWithinVisits(t)
  }

  /** `opponent`: the colour that is not `curPlayer`. */
  function OpponentOf(cur: Player): (opp: Player)
    ensures opp != cur
    ensures cur == White <==> opp == Black
  {
    if cur == White then Black else White
  }

  /** The UCT comparator used by `selectPromisingNode`. */
  function UctOrder<S, M>(formula: (int, int, int) -> real): (Node<S, M, int>, Node<S, M, int>) -> real {
    (p: Node<S, M, int>, c: Node<S, M, int>) => UctValue(p.visits, c.wins, c.visits, formula)
  }

  /** `selectPromisingNode(root)`: follow `findBestNodeWithUCT` down to a node without children. */
  function SelectPromisingNode<S, M>(t: Arena<S, M, int>, root: NodeId, formula: (int, int, int) -> real)
    : (leaf: NodeId)
    requires Linked(t) && root in t.nodes
    ensures leaf in t.nodes && t.nodes[leaf].children == []
    ensures root in Ancestry(t, leaf)
  {
    SelectLeaf(t, root, UctOrder(formula))
  }

  /** One step of `backPropogation`: node `n` gains a visit, and a win when `credit` holds. */
  function Bump<S, M>(t: Arena<S, M, int>, n: NodeId, credit: bool): (u: Arena<S, M, int>)
    requires n in t.nodes
    ensures SameShape(t, u)
    ensures u.nodes[n].visits == t.nodes[n].visits + 1
    ensures u.nodes[n].wins == t.nodes[n].wins + (if credit then 1 else 0)
    ensures forall x {:trigger u.nodes[x]} :: x in t.nodes && x != n ==> u.nodes[x] == t.nodes[x]
  {
    var node := t.nodes[n];
    Arena(t.nodes[n := node.(visits := node.visits + 1, wins := if credit then node.wins + 1 else node.wins)], t.next)
  }

  /**
    `backPropogation(leaf, winner)`: walk from `n` to the top, bumping every
    node on the way; `credit` is whether the playout's winner is `curPlayer`.
  */
  function BackPropagation<S, M>(t: Arena<S, M, int>, n: NodeId, credit: bool): (u: Arena<S, M, int>)
    requires Linked(t)
    decreases n
    ensures SameShape(t, u)
  {
    if n !in t.nodes then t
    else
      var t1 := Bump(t, n, credit);
      match t.nodes[n].parent
      case None => t1
      case Some(q) =>
        SameShapeKeepsWalks(t, t1, q);
        BackPropagation(t1, q, credit)
  }

  /** The counts of one node `x` after backpropagating from `n`. */
  lemma {:induction false} BackPropagationAt<S, M>(t: Arena<S, M, int>, n: NodeId, credit: bool, x: NodeId)
    requires Linked(t) && x in t.nodes
    decreases n
    ensures var u := BackPropagation(t, n, credit);
      && u.nodes[x].visits == t.nodes[x].visits + (if x in Ancestry(t, n) then 1 else 0)
      && u.nodes[x].wins == t.nodes[x].wins + (if credit && x in Ancestry(t, n) then 1 else 0)
  {
    if n in t.nodes {
      var t1 := Bump(t, n, credit);
      match t.nodes[n].parent
      case None =>
      case Some(q) =>
        SameShapeKeepsWalks(t, t1, q);
        BackPropagationAt(t1, q, credit, x);
        AncestryStep(t, n);
    }
  }

  /**
    `simulateRandomPlayout(node)`. A state the opponent has already won sets
    the parent's `winCount` to `Integer.MIN_VALUE` (a root has no parent and
    faults) and reports the opponent; a finished state reports its winner;
    otherwise the random playout runs to the end and reports `rollout`.
  */
  function SimulateRandomPlayout<S, M>(g: Rules<S, M>, t: Arena<S, M, int>, n: NodeId, cur: Player, rollout: Final)
    : (r: Result<Playout<S, M>>)
    requires Linked(t) && n in t.nodes
    ensures var w := g.winner(t.nodes[n].state);
      r.Err? <==> w == Won(OpponentOf(cur)) && t.nodes[n].parent == None
    ensures r.Err? ==> r.fault == NullPointer
    ensures r.Ok? ==> r.value.winner == (if g.winner(t.nodes[n].state) == Nobody then rollout else g.winner(t.nodes[n].state))
    ensures r.Ok? ==> SameShape(t, r.value.arena)
    ensures r.Ok? ==> forall x :: x in t.nodes ==> r.value.arena.nodes[x].visits == t.nodes[x].visits
    ensures r.Ok? ==> forall x :: x in t.nodes ==>
      r.value.arena.nodes[x].wins == (if g.winner(t.nodes[n].state) == Won(OpponentOf(cur)) && Some(x) == t.nodes[n].parent
                                      then MinInt else t.nodes[x].wins)
  {
    var w := g.winner(t.nodes[n].state);
    if w == Won(OpponentOf(cur)) then
      match t.nodes[n].parent
      case None => Err(NullPointer)
      case Some(q) =>
        var parent := t.nodes[q];
        Ok(Playout(Arena(t.nodes[q := parent.(wins := MinInt)], t.next), w))
    else if w != Nobody then Ok(Playout(t, w))
    else Ok(Playout(t, rollout))
  }

  /** The node the playout starts from: a random child of the leaf, or the leaf itself when it has none. */
  function PickExplore<S, M>(t: Arena<S, M, int>, leaf: NodeId, draw: nat): (x: NodeId)
    requires Linked(t) && leaf in t.nodes
    ensures x in t.nodes
    ensures t.nodes[leaf].children == [] <==> x == leaf
    ensures x != leaf ==> x in t.nodes[leaf].children && t.nodes[x].parent == Some(leaf)
  {
    match GetRandomChild(t, leaf, draw)
    case None => leaf
    case Some(c) => c
  }

  /**
    One iteration of the `chooseMoveMCTS` loop: select, expand unless the
    game is over, pick a random child when there is one, play out, and
    backpropagate.
  */
  function Iterate<S, M>(g: Rules<S, M>, t: Arena<S, M, int>, root: NodeId, cur: Player,
                         formula: (int, int, int) -> real, round: Round): (r: Result<Arena<S, M, int>>)
    requires Linked(t) && root in t.nodes
    ensures r.Ok? ==> Linked(r.value) && root in r.value.nodes
  {
    var leaf := SelectPromisingNode(t, root, formula);
    var t1 := ExpandIfRunning(g, t, leaf, 0);
    var explore := PickExplore(t1, leaf, round.draw);
    var p :- SimulateRandomPlayout(g, t1, explore, cur, round.rollout);
    SameShapeKeepsWalks(t1, p.arena, explore);
    var u := BackPropagation(p.arena, explore, p.winner == Won(cur));
    SameShapeKeepsWalks(p.arena, u, explore);
    Ok(u)
  }

  /** The loop of `chooseMoveMCTS`, one round per element of `rounds`. */
  function RunRounds<S, M>(g: Rules<S, M>, t: Arena<S, M, int>, root: NodeId, cur: Player,
                           formula: (int, int, int) -> real, rounds: seq<Round>): (r: Result<Arena<S, M, int>>)
    requires Valid(g, t, root)
    decreases |rounds|
    ensures r.Ok? ==> Valid(g, r.value, root) && Grows(t, r.value)
    ensures rounds == [] ==> r == Ok(t)
  {
    if rounds == [] then Ok(t)
    else
      IterateKeepsValid(g, t, root, cur, formula, rounds[0]);
      var t1 :- Iterate(g, t, root, cur, formula, rounds[0]);
      var rest := RunRounds(g, t1, root, cur, formula, rounds[1..]);
      if rest.Ok? then GrowsTransitive(t, t1, rest.value); rest else rest
  }

  /** The tree `chooseMoveMCTS` starts from: a single root holding the board. */
  function NewTree<S, M>(s: S): (t: Arena<S, M, int>)
    ensures t.nodes.Keys == {0} && t.nodes[0] == CreateNode(None, s, None)
  {
    Arena(map[0 := CreateNode(None, s, None)], 1)
  }

  /**
    `chooseMoveMCTS(boardState)`: search from a fresh tree with the colour to
    move as `curPlayer`, then answer with the move of the root child with the
    most wins (`NoSuchElementException` when no round ran).
  */
  function ChooseMoveMcts<S, M>(g: Rules<S, M>, s: S, formula: (int, int, int) -> real, rounds: seq<Round>)
    : (r: Result<Choice<S, M>>)
    ensures rounds == [] ==> r == Err(NoSuchElement)
    ensures r.Ok? ==> var t := r.value.arena;
      && 0 in t.nodes && r.value.child in t.nodes[0].children && r.value.child in t.nodes
      && t.nodes[r.value.child].move == Some(r.value.move)
      && r.value.move in g.legalMoves(s)
      && (forall c :: c in t.nodes[0].children ==> c in t.nodes && t.nodes[c].wins <= t.nodes[r.value.child].wins)
      && t.nodes[0].visits == |rounds|
  {
    var t0 := NewTree(s);
    assert Valid(g, t0, 0);
    RunRoundsVisitRoot(g, t0, 0, g.turnPlayer(s), formula, rounds);
    var t :- RunRounds(g, t0, 0, g.turnPlayer(s), formula, rounds);
    var best :- GetChildWithMaxScore(t, 0);
    assert t.nodes[best].move.Some? && t.nodes[best].state == g.apply(t.nodes[0].state, t.nodes[best].move.value);
    Ok(Choice(t, best, t.nodes[best].move.value))
  }

  // ----- Invariants -----

  /** Backpropagation keeps every invariant of the tree. */
  lemma BackPropagationKeepsValid<S, M>(g: Rules<S, M>, t: Arena<S, M, int>, root: NodeId, n: NodeId, credit: bool)
    requires Valid(g, t, root)
    ensures Valid(g, BackPropagation(t, n, credit), root) && Grows(t, BackPropagation(t, n, credit))
  {
    var u := BackPropagation(t, n, credit);
    BackPropagationKeepsStats(t, n, credit);
    VisitKeepsCover(t, u, n);
    SameShapeKeepsConsistency(g, t, u);
  }

  lemma BackPropagationKeepsStats<S, M>(t: Arena<S, M, int>, n: NodeId, credit: bool)
    requires Linked(t) && VisitsNonNegative(t) && WinsWithinVisits(t)
    ensures var u := BackPropagation(t, n, credit);
      Linked(u) && VisitedAlong(t, u, n) && VisitsNonNegative(u) && WinsWithinVisits(u)
  {
    var u := BackPropagation(t, n, credit);
    SameShapeKeepsWalks(t, u, n);
    forall x | x in t.nodes
      ensures u.nodes[x].visits == t.nodes[x].visits + (if x in Ancestry(t, n) then 1 else 0)
      ensures 0 <= u.nodes[x].visits && u.nodes[x].wins <= u.nodes[x].visits
    {
      BackPropagationAt(t, n, credit, x);
    }
  }

  /** The `MIN_VALUE` sentinel and a plain playout keep every invariant. */
  lemma SimulateKeepsValid<S, M>(g: Rules<S, M>, t: Arena<S, M, int>, root: NodeId, n: NodeId, cur: Player, rollout: Final)
    requires Valid(g, t, root) && n in t.nodes
    ensures var r := SimulateRandomPlayout(g, t, n, cur, rollout);
      r.Ok? ==> Valid(g, r.value.arena, root) && Grows(t, r.value.arena)
  {
    var r := SimulateRandomPlayout(g, t, n, cur, rollout);
    if r.Ok? {
      var u := r.value.arena;
      SameShapeKeepsWalks(t, u, n);
      SameShapeKeepsConsistency(g, t, u);
      SameVisitsKeepCover(t, u);
    }
  }

  /** Expansion keeps every invariant of the tree. */
  lemma ExpandKeepsValid<S, M>(g: Rules<S, M>, t: Arena<S, M, int>, root: NodeId, n: NodeId)
    requires Valid(g, t, root) && n in t.nodes
    ensures Valid(g, Expand(g, t, n, 0), root) && Grows(t, Expand(g, t, n, 0))
  {
    ExpandKeepsLinks(g, t, n, 0);
    ExpandKeepsConsistency(g, t, n, 0);
    ExpandKeepsCover(g, t, n, 0);
    ExpandKeepsWins(g, t, n);
    ExpandGrows(g, t, n, 0);
  }

  /** The new children start with no wins and no visits. */
  lemma ExpandKeepsWins<S, M>(g: Rules<S, M>, t: Arena<S, M, int>, n: NodeId)
    requires Linked(t) && n in t.nodes && WinsWithinVisits(t)
    ensures WinsWithinVisits(Expand(g, t, n, 0))
  {
    var u := Expand(g, t, n, 0);
    forall x | x in u.nodes
      ensures u.nodes[x].wins <= u.nodes[x].visits
    {
      if x !in t.nodes {
        var moves := g.legalMoves(t.nodes[n].state);
        var k := x - t.next;
        assert 0 <= k < |moves|;
        var kid := NewNode(g.apply(t.nodes[n].state, moves[k]), Some(moves[k]), Some(n), 0);
        assert u.nodes[t.next + k] == kid;
      }
    }
  }


  /** A whole round keeps every invariant of the tree, and old nodes keep their states and moves. */
  lemma IterateKeepsValid<S, M>(g: Rules<S, M>, t: Arena<S, M, int>, root: NodeId, cur: Player,
                                formula: (int, int, int) -> real, round: Round)
    requires Valid(g, t, root)
    ensures var r := Iterate(g, t, root, cur, formula, round);
      r.Ok? ==> Valid(g, r.value, root) && Grows(t, r.value)
  {
    var leaf := SelectPromisingNode(t, root, formula);
    var t1 := ExpandIfRunning(g, t, leaf, 0);
    if !g.gameOver(t.nodes[leaf].state) {
      ExpandKeepsValid(g, t, root, leaf);
    }
    assert Valid(g, t1, root) && Grows(t, t1);
    var explore := PickExplore(t1, leaf, round.draw);
    var p := SimulateRandomPlayout(g, t1, explore, cur, round.rollout);
    if p.Ok? {
      SimulateKeepsValid(g, t1, root, explore, cur, round.rollout);
      var u := BackPropagation(p.value.arena, explore, p.value.winner == Won(cur));
      BackPropagationKeepsValid(g, p.value.arena, root, explore, p.value.winner == Won(cur));
      GrowsTransitive(t, t1, p.value.arena);
      GrowsTransitive(t, p.value.arena, u);
    }
  }

  // ----- Visit counts -----

  /** The playout starts below the root, so the walk back from it passes the root. */
  lemma ExploreBelowRoot<S, M>(t: Arena<S, M, int>, root: NodeId, leaf: NodeId, draw: nat)
    requires Linked(t) && leaf in t.nodes && root in Ancestry(t, leaf)
    ensures root in Ancestry(t, PickExplore(t, leaf, draw))
  {
    var x := PickExplore(t, leaf, draw);
    if x != leaf {
      assert t.nodes[x].parent == Some(leaf);
      AncestryStep(t, x);
    }
  }

  /** Every completed round visits the root exactly once. */
  lemma IterateVisitsRootOnce<S, M>(g: Rules<S, M>, t: Arena<S, M, int>, root: NodeId, cur: Player,
                                    formula: (int, int, int) -> real, round: Round)
    requires Linked(t) && root in t.nodes
    ensures var r := Iterate(g, t, root, cur, formula, round);
      r.Ok? ==> r.value.nodes[root].visits == t.nodes[root].visits + 1
  {
    var leaf := SelectPromisingNode(t, root, formula);
    var t1 := ExpandIfRunning(g, t, leaf, 0);
    ExpandIfRunningKeepsOld(g, t, leaf, 0, leaf);
    ExpandIfRunningKeepsOld(g, t, leaf, 0, root);
    var explore := PickExplore(t1, leaf, round.draw);
    ExploreBelowRoot(t1, root, leaf, round.draw);
    var p := SimulateRandomPlayout(g, t1, explore, cur, round.rollout);
    if p.Ok? {
      SameShapeKeepsWalks(t1, p.value.arena, explore);
      BackPropagationAt(p.value.arena, explore, p.value.winner == Won(cur), root);
    }
  }

  /** After the loop the root has been visited once per round. */
  lemma {:induction false} RunRoundsVisitRoot<S, M>(g: Rules<S, M>, t: Arena<S, M, int>, root: NodeId, cur: Player,
                                                    formula: (int, int, int) -> real, rounds: seq<Round>)
    requires Valid(g, t, root)
    decreases |rounds|
    ensures var r := RunRounds(g, t, root, cur, formula, rounds);
      r.Ok? ==> r.value.nodes[root].visits == t.nodes[root].visits + |rounds|
  {
    if rounds != [] {
      IterateKeepsValid(g, t, root, cur, formula, rounds[0]);
      IterateVisitsRootOnce(g, t, root, cur, formula, rounds[0]);
      var t1 := Iterate(g, t, root, cur, formula, rounds[0]);
      if t1.Ok? {
        RunRoundsVisitRoot(g, t1.value, root, cur, formula, rounds[1..]);
      }
    }
  }
}
